=== FILE: README.md ===
# csvw_functions_extra in Dafny

This project models the pure core of `csvw_functions_extra`. The package reads
a CSVW table-group metadata document and uses the
`https://purl.org/berg/csvw_functions_extra/vocab/` vocabulary to download
CSV files and load them into SQLite. The model covers:

- the value normaliser `_convert_to_iterator` (module `Iterators`);
- the filter compiler `get_where_clause_list`, which turns a dictionary into
  a `WHERE` fragment (module `WhereClause`), together with a reader for that
  fragment;
- the statements built by `_create_table_from_csvw` and `add_index`: the
  `CREATE TABLE` statement with its SQL type map and primary-key clause, the
  per-column `CREATE INDEX` statements, and the ad-hoc index (module
  `Schema`), together with readers for the `CREATE TABLE` statement and
  for the ad-hoc `CREATE INDEX` statement;
- the metadata lookups `get_metadata_table_dict`, `get_metadata_column_dict`
  and `get_metadata_sql_table_names` (module `Metadata`);
- the download planning of `_get_download_info`,
  `_download_table_and_metadata` and `download_table_group` (module
  `Download`). The plan lists which files would be fetched or extracted,
  given the set of files already present.

`Wrappers` holds `Option` and `Result`. `Text` holds the string helpers:
Python's `str.join`, decimal rendering and parsing of integers, and
double-quoting.

Python values are modelled as follows:

- A JSON dictionary is a sequence of entries in insertion order. A
  metadata property is a map from the property URI to its `@value`.
- A value passed to `_convert_to_iterator` is `None`, a single `str` or
  `int`, or a list of them.
- Errors Python raises are modelled as `Err` values:
  - the `TypeError` of `str.join` on a non-string item;
  - the `KeyError` of a missing property;
  - the bare `Exception` of a failed lookup;
  - the `TypeError` of `os.path.exists(None)`;
  - on the archive branch of a download, the errors of `zipfile.ZipFile(None)`,
    the `FileNotFoundError` of `ZipFile` on an archive that is absent, and the
    `KeyError` of `z.read(None)`.

Some behaviours of the code are easy to miss, and the model keeps them:

- The compiled filter is `WHERE ...` with no leading space.
- A filter value that normalises to an empty list makes
  `' AND '.join` raise. It does not produce `= NULL`.
- Only `integer` and `decimal` get a numeric SQL type. `number` and every
  other base become `TEXT`.
- The compiler has no `BETWEEN`, projection or grouping.

## Model

| member | source | states |
|---|---|---|
| Iterators.ToIterator | csvw_functions_extra/csvw_functions_extra.py:668-681 | `None` gives the empty list, a scalar gives a one-element list, and a list is kept as it is; the result is empty exactly for `None` and the empty list |
| WhereClause.Compile | csvw_functions_extra/csvw_functions_extra.py:734-760 | a successful result is either empty or starts with `WHERE `, and a dictionary whose values are all `None` never fails; the exact result is stated by CompileEmptyIff, CompileFailsIff, CompileFormat and CompileRoundTrip below |
| WhereClause.CompileEmptyIff | csvw_functions_extra/csvw_functions_extra.py:737-760 | the filter compiles to the empty string exactly when every value in the dictionary is `None` |
| WhereClause.CompileFailsIff | csvw_functions_extra/csvw_functions_extra.py:743-757 | compiling fails exactly when some non-`None` value normalises to an empty list; the error names the first such value among the non-`None` items |
| WhereClause.CompileFormat | csvw_functions_extra/csvw_functions_extra.py:741-758 | a successful compile with constraints gives `WHERE ` and then one fragment per non-`None` item, in dictionary order, joined by ` AND ` |
| WhereClause.FragmentRoundTrip | csvw_functions_extra/csvw_functions_extra.py:744-750 | a field with one value gives `("k" = v)` and one with several gives `("k" IN (v1,...))`, strings double-quoted and integers in decimal; reading the fragment back gives the field and every value in order, with the same tag |
| WhereClause.CompileRoundTrip | csvw_functions_extra/csvw_functions_extra.py:741-758 | when no name of a non-`None` item and no string value holds a double quote, reading the compiled clause back gives exactly the non-`None` items with their normalised value lists; `=` and `IN` fragments and string vs integer literals are told apart |
| Schema.SqlType | csvw_functions_extra/csvw_functions_extra.py:408-416 | `INTEGER` exactly for `integer`, `REAL` exactly for `decimal`, and `TEXT` for every other base |
| Schema.PrimaryKeyClause | csvw_functions_extra/csvw_functions_extra.py:421-431 | a single key name is read as a list; the clause is `, PRIMARY KEY (` followed by the quoted names joined by `, ` and then `) `; an empty key list leaves `, PRIMARY KEY) ` |
| Schema.CreateTable | csvw_functions_extra/csvw_functions_extra.py:412-433 | the statement is the quoted table name, the column definitions joined by `, `, the key clause and `);`; with no columns the trim removes the ` (` after the table name |
| Schema.CreateTableRoundTrip | csvw_functions_extra/csvw_functions_extra.py:412-433 | for a schema with at least one column, whose declared key (if any) names at least one column, and where no name holds a double quote, reading the statement back gives the table name, every column with its mapped SQL type in order, and the key columns |
| Schema.SchemaIndexes | csvw_functions_extra/csvw_functions_extra.py:446-453 | exactly one `CREATE INDEX "t_c" ON "t"("c")` statement per column flagged `sqlsetindex`, in column order |
| Schema.IndexedColumnsIff | csvw_functions_extra/csvw_functions_extra.py:448-453 | a column gets an index exactly when some column of that name carries the flag |
| Schema.SchemaIndexNamesCollide | csvw_functions_extra/csvw_functions_extra.py:452 | table `a_b` with column `c` and table `a` with column `b_c` get the same index name |
| Schema.FieldNames | csvw_functions_extra/csvw_functions_extra.py:693-694 | the fields are all strings and are kept in order, or the error gives the position of the first field that is not a string |
| Schema.AddIndexSql | csvw_functions_extra/csvw_functions_extra.py:696-716 | the statement starts with `CREATE UNIQUE INDEX` exactly when `unique` holds, and ends with the quoted column list |
| Schema.AddIndex | csvw_functions_extra/csvw_functions_extra.py:693-716 | the call succeeds exactly when every normalised field is a string; the index name is exactly `index__<table>__` followed by the field names joined by `__`, with `__UNIQUE` appended exactly when `unique` holds |
| Schema.AddIndexRoundTrip | csvw_functions_extra/csvw_functions_extra.py:693-716 | for at least one field, when neither the table nor any field holds a double quote, reading the statement back gives the `unique` flag, the index name, the table and every field in order |
| Schema.AddIndexNamesCollide | csvw_functions_extra/csvw_functions_extra.py:694-703 | fields `['a', 'b']` and `['a__b']` get the same index name although their column lists differ, so the second statement fails on an existing index and that failure is swallowed |
| Schema.AddIndexUniqueNameCollides | csvw_functions_extra/csvw_functions_extra.py:700-703 | a unique index on `x` and a plain index on `x__UNIQUE` get the same name |
| Metadata.FindTable | csvw_functions_extra/csvw_functions_extra.py:310-320 | returns the first table whose key value equals the name, with every earlier table carrying the key under another value; `Missing` means the first table in the scan that lacks the key; `NotFound` means every table was passed over |
| Metadata.FirstColumnNamed | csvw_functions_extra/csvw_functions_extra.py:346-354 | succeeds exactly when some column has the given name, and then returns the first such column; otherwise fails with `NotFound` |
| Metadata.FindColumn | csvw_functions_extra/csvw_functions_extra.py:340-356 | the table lookup's error is passed on; otherwise the result is the first column of that table with the given name, or `NotFound` |
| Metadata.SqlTableNamesExact | csvw_functions_extra/csvw_functions_extra.py:374-383 | the names are the key values of exactly the tables that carry the key, one per table, in table order |
| Download.GetDownloadInfo | csvw_functions_extra/csvw_functions_extra.py:29-73 | succeeds exactly when the table has `csv_file_name`; each URL, file name and member path is the table's property of that name, or `None` when it is absent; the CSV path is the data folder joined with `csv_file_name`; the archive path is the data folder joined with `zip_file_name`, and exists exactly when that is given; the suffix is the table's own, or `-metadata.txt` by default |
| Download.InfoReadsOnlyVocabulary | csvw_functions_extra/csvw_functions_extra.py:29-73 | two tables that agree on the seven download properties get the same download information, whatever else they hold |
| Download.PlanDownload | csvw_functions_extra/csvw_functions_extra.py:77-144 | the present files only grow, every transfer that names a destination leaves it present, and only a table whose CSV has no URL of its own can fail; the lemmas below state what a successful plan does and when each transfer happens |
| Download.PlanAchieves | csvw_functions_extra/csvw_functions_extra.py:92-144 | after a successful plan the CSV is present, and so is the metadata sidecar when the table has a metadata URL |
| Download.CsvFetchDecision | csvw_functions_extra/csvw_functions_extra.py:92-100 | a CSV with its own URL never fails, and is fetched into the CSV path exactly when overwriting or when the CSV is absent |
| Download.ExtractDecision | csvw_functions_extra/csvw_functions_extra.py:102-125 | a CSV without its own URL is extracted, from the archive path and the named member into the CSV path, exactly when it is absent and the archive fetch has not itself written the CSV path; otherwise nothing is extracted |
| Download.SidecarDecision | csvw_functions_extra/csvw_functions_extra.py:128-144 | the metadata sidecar is fetched from the metadata URL exactly when overwriting or when the sidecar is absent, provided the archive branch does not put the CSV at the sidecar's own path |
| Download.OverwriteRefetches | csvw_functions_extra/csvw_functions_extra.py:92-144 | when overwriting, the plan starts by fetching the CSV URL or, without one, the archive URL, and ends by fetching the metadata URL, whatever is present |
| Download.ArchiveUrlWithoutFileName | csvw_functions_extra/csvw_functions_extra.py:102-121 | an archive URL without a zip file name fails on `os.path.exists(None)` when not overwriting, and on `ZipFile(None)` when overwriting with the CSV absent |
| Download.PlanKeepsExistingFiles | csvw_functions_extra/csvw_functions_extra.py:92-144 | without overwriting, every planned transfer names its destination and none writes to a file that was already present |
| Download.PlanIdempotent | csvw_functions_extra/csvw_functions_extra.py:92-144 | a second run without overwriting, starting from the files the first run left or from any larger set, plans nothing and leaves the files as they are |
| Download.ExtractionFailures | csvw_functions_extra/csvw_functions_extra.py:102-125 | when the CSV has no URL, no archive URL is given and the CSV is absent, the download fails whether or not overwriting is on: with `ArchiveOfNone` when no `zip_file_name` is given, with `ArchiveMissing` when the archive is absent, and with `MemberOfNone` when no member path is given |
| Download.CsvUrlIgnoresArchive | csvw_functions_extra/csvw_functions_extra.py:92-136 | when the CSV has its own URL, the archive URL, archive path and member path change nothing in the plan |
| Download.DefaultSidecarHasDoubleDash | csvw_functions_extra/csvw_functions_extra.py:131-136 | when the suffix is the default `-metadata.txt` (line 48), the `f"{fp}-{suffix}"` sidecar path ends in `--metadata.txt`, whichever of the CSV or archive path it starts from |
| Download.SelectionRule | csvw_functions_extra/csvw_functions_extra.py:212-213 | `None` and the empty list select every table; a single name selects exactly the tables with that name; a single integer selects none |
| Download.DownloadTable | csvw_functions_extra/csvw_functions_extra.py:205-229 | one table of the pass: a table without `csv_file_name` fails with the `KeyError`; an unselected table gets `url` set to that name and plans nothing; a selected one succeeds exactly when its download plan does, fails with the plan's error otherwise, and on success carries exactly the plan's transfers and files with `url` set; files only grow, and without overwriting no transfer writes to a file already present |
| Download.DirectCsvTable | csvw_functions_extra/csvw_functions_extra.py:92-100 | a selected table with its own CSV URL and no metadata URL, whose CSV is absent, fetches exactly that URL into the data folder joined with `csv_file_name` |
| Download.DownloadTableGroup | csvw_functions_extra/csvw_functions_extra.py:205-229 | the pass succeeds exactly when every table, run in order from the files the previous one left, succeeds, and then gives each table's outcome in order and the final files; otherwise it gives the error of the first failing table, every table before it having succeeded |
| Download.PassFacts | csvw_functions_extra/csvw_functions_extra.py:205-229 | every table of a pass has `csv_file_name` and has `url` set to it; unselected tables get no transfers; the files only grow; without overwriting, no transfer in the whole pass writes to a file present at the start |
| Download.PassIdempotent | csvw_functions_extra/csvw_functions_extra.py:205-229 | a second pass without overwriting, from the files the first successful pass left, succeeds, plans no transfer for any table and leaves the files as they are |
| Download.ArchiveFetchedWhileCsvPresent | csvw_functions_extra/csvw_functions_extra.py:102-115 | with the CSV already present and no overwriting, a table whose CSV comes from an archive still fetches the missing archive |
| Download.OverwriteKeepsArchivedCsv | csvw_functions_extra/csvw_functions_extra.py:102-125 | when overwriting, a CSV that comes from an archive and is already present is not extracted again, although the archive is fetched again |
| Download.DocumentedOverwriteWritesCsv | csvw_functions_extra/csvw_functions_extra.py:170-171 | when overwriting, the plan the documentation describes writes the CSV: it fetches the CSV URL into the CSV path, or extracts the named archive member into it |
| Download.DocumentedPlanKeepsPromises | csvw_functions_extra/csvw_functions_extra.py:170-173 | the plan the `overwrite_existing_files` documentation describes writes nothing already present and plans nothing on a second run; with the CSV present it plans nothing at all |
| Metadata.KeysDiffer | csvw_functions_extra/csvw_functions_extra.py:310-320 | a table carrying only the extra vocabulary's `sql_table_name` is not found under the core vocabulary's key, which it lacks, and is found, and listed, under the extra one |

## Left out

- File and network I/O are not modelled. This covers reading and writing the metadata JSON, `urlretrieve`, `zipfile`, `os.makedirs` and `os.path.exists`. The file system is a set of present paths, and a transfer is an action in a plan. When no archive name is given, `urlretrieve` writes to a temporary file; the model records that as a fetch with no destination.
- Executing the SQL against SQLite, the `sqlite3.OperationalError` swallowed by `add_index`, `_check_if_table_exists_in_database`, `_drop_table`, `_get_row_count_in_database_table`, `_import_csv_file` and `run_sql` are left out, because they only pass strings to the database.
- `import_table_group_to_sqlite` and `_get_import_info` are left out. They are orchestration around the database, and the orchestration refers to a name that is never defined.
- `get_metadata_table_group_dict` and the validation by `csvw_functions` are left out: they are calls into another package and the file system. The lookups take the table group directly.
- Values that are floats, booleans, nested lists or `None` inside a list are not modelled. Neither are dictionary values passed where a list is expected. A string passed where a list of values is expected is treated as one scalar value, whereas Python would iterate over its characters.
- Metadata properties without an `@value` are not modelled.
- `Download.PathJoin` models POSIX `os.path.join` only.
- Download.PlanDownload: the contents of an archive are not modelled, so a named member is taken to be in the archive and a `KeyError` from `z.read` for a missing member is not modelled.
- Download.SidecarDecision: does not state the case where an archive-branch table puts its CSV at the sidecar's own path, because the CSV step then creates the sidecar file, so that without overwriting no metadata is fetched even though the sidecar was absent at the start.
- Download.PlanDownload: the empty CSV file that `open(fp_csv, 'wb')` leaves behind when `z.read(None)` then raises is not tracked; a failed plan carries no file set.
- `Metadata.SqlTableNames` states only a length bound in its own contract; `Metadata.SqlTableNamesExact` carries the exact property.
- The `verbose` printing is left out.
- Text.IntToString: renders integers of any size, whereas Python 3.11 and later raise `ValueError` when `str()` converts an integer of more than 4300 digits; that error of the filter compiler is not modelled.

## Findings

| source | as written | input that shows it | evidently intended | confidence | as-written member | corrected member |
|---|---|---|---|---|---|---|
| csvw_functions_extra/csvw_functions_extra.py:102-115 | without overwriting, the archive is fetched whenever it is absent, even when the CSV it would be extracted into is already present; lines 128-144 fetch a missing sidecar the same way | a table with `zip_download_url` `u` and `zip_file_name` `z.zip`, no CSV URL, data folder `d`, and only `d/x.csv` present: the archive `d/z.zip` is fetched | lines 170-173 say that without overwriting no download occurs when the CSV file exists | low, not executed; the documentation may only be loose | Download.ArchiveFetchedWhileCsvPresent | Download.DocumentedPlanKeepsPromises |
| csvw_functions_extra/csvw_functions_extra.py:117 | the CSV is extracted only when it is absent; `overwrite_existing_files` is not consulted, so an existing CSV from an archive is never rewritten, although line 107 fetches the archive again | a table with `zip_download_url` `u`, `zip_file_name` `z.zip`, member `x.csv`, no CSV URL, data folder `d`, `d/x.csv` and `d/z.zip` present, overwriting on: only the archive is fetched | lines 170-171 say that when overwriting, any existing CSV file is overwritten | medium, not executed | Download.OverwriteKeepsArchivedCsv | Download.DocumentedOverwriteWritesCsv |

`Download.PlanAsDocumented` is the corrected plan for both rows. It is the
code's plan whenever overwriting is off and the CSV is absent, and whenever
overwriting is on and the CSV has its own URL. `Download.DownloadTable` and
`Download.DownloadTableGroup` keep the plan of the code as written, because
the documentation may only be loose.

=== FILE: download.dfy ===
/** `download_table_group` and its helpers as a plan: which files would be
    fetched or extracted, given the files already present. The transfers
    themselves (`urlretrieve`, `zipfile`), creating the data folder and
    writing the updated metadata document are not part of this model. */
module Download {
  import opened Wrappers
  import opened Text
  import opened Iterators
  import opened Metadata

  const CsvFileNameKey := "https://purl.org/berg/csvw_functions_extra/vocab/csv_file_name"
  const CsvDownloadUrlKey := "https://purl.org/berg/csvw_functions_extra/vocab/csv_download_url"
  const ZipDownloadUrlKey := "https://purl.org/berg/csvw_functions_extra/vocab/zip_download_url"
  const ZipFileNameKey := "https://purl.org/berg/csvw_functions_extra/vocab/zip_file_name"
  const CsvZipExtractPathKey := "https://purl.org/berg/csvw_functions_extra/vocab/csv_zip_extract_path"
  const MetadataUrlKey := "https://purl.org/berg/csvw_functions_extra/vocab/metadata_download_url"
  const MetadataFileSuffixKey := "https://purl.org/berg/csvw_functions_extra/vocab/metadata_file_suffix"

  /** The suffix used when a table names none. */
  const DefaultMetadataSuffix := "-metadata.txt"

  /** `os.path.join(a, b)` on POSIX: an absolute `b` replaces `a`, otherwise
      a `/` is inserted unless `a` is empty or already ends with one. */
  function PathJoin(a: string, b: string): (r: string)
    ensures EndsWith(r, b)
    ensures |b| > 0 && b[0] == '/' ==> r == b
    ensures !(|b| > 0 && b[0] == '/') ==> StartsWith(r, a) && |r| <= |a| + 1 + |b|
  {
    if |b| > 0 && b[0] == '/' then b
    else if a == "" || a[|a| - 1] == '/' then a + b
    else a + "/" + b
  }

  /** `d.get(key, {'@value': None})['@value']`. */
  function Property(t: Table, key: string): Option<string>
  {
    if key in t.properties then Some(t.properties[key]) else None
  }

  /** What `_get_download_info` collects for one table. */
  datatype DownloadInfo = DownloadInfo(
    csvFileName: string,
    csvDownloadUrl: Option<string>,
    zipDownloadUrl: Option<string>,
    zipFileName: Option<string>,
    csvZipExtractPath: Option<string>,
    metadataUrl: Option<string>,
    metadataFileSuffix: string,
    fpCsv: string,
    fpZip: Option<string>)

  /** The `KeyError` of a table without `csv_file_name`. */
  datatype InfoError = MissingCsvFileName

  function GetDownloadInfo(t: Table, dataFolder: string): (r: Result<DownloadInfo, InfoError>)
    ensures r.Ok? <==> CsvFileNameKey in t.properties
    ensures r.Ok? ==>
      && r.value.csvFileName == t.properties[CsvFileNameKey]
      && r.value.csvDownloadUrl == Property(t, CsvDownloadUrlKey)
      && r.value.zipDownloadUrl == Property(t, ZipDownloadUrlKey)
      && r.value.zipFileName == Property(t, ZipFileNameKey)
      && r.value.csvZipExtractPath == Property(t, CsvZipExtractPathKey)
      && r.value.metadataUrl == Property(t, MetadataUrlKey)
      && r.value.fpCsv == PathJoin(dataFolder, r.value.csvFileName)
      && (r.value.fpZip.Some? <==> ZipFileNameKey in t.properties)
      && (ZipFileNameKey in t.properties ==> r.value.fpZip == Some(PathJoin(dataFolder, t.properties[ZipFileNameKey])))
      && (MetadataFileSuffixKey in t.properties ==> r.value.metadataFileSuffix == t.properties[MetadataFileSuffixKey])
      && (MetadataFileSuffixKey !in t.properties ==> r.value.metadataFileSuffix == DefaultMetadataSuffix)
  {
    if CsvFileNameKey !in t.properties then Err(MissingCsvFileName)
    else
      var csvFileName := t.properties[CsvFileNameKey];
      var zipFileName := Property(t, ZipFileNameKey);
      Ok(DownloadInfo(
        csvFileName,
        Property(t, CsvDownloadUrlKey),
        Property(t, ZipDownloadUrlKey),
        zipFileName,
        Property(t, CsvZipExtractPathKey),
        Property(t, MetadataUrlKey),
        if MetadataFileSuffixKey in t.properties then t.properties[MetadataFileSuffixKey] else DefaultMetadataSuffix,
        PathJoin(dataFolder, csvFileName),
        match zipFileName
        case None => None
        case Some(z) => Some(PathJoin(dataFolder, z))))
  }

  /** The table's entries under the seven download keys, present or not. */
  predicate SameDownloadProperties(t: Table, u: Table)
  {
    forall k :: k in [CsvFileNameKey, CsvDownloadUrlKey, ZipDownloadUrlKey, ZipFileNameKey,
                      CsvZipExtractPathKey, MetadataUrlKey, MetadataFileSuffixKey] ==>
      Property(t, k) == Property(u, k)
  }

  /** The download information depends on the download vocabulary alone:
      two tables that agree on those properties, whatever else they hold,
      get the same information. */
  lemma InfoReadsOnlyVocabulary(t: Table, u: Table, dataFolder: string)
    requires SameDownloadProperties(t, u)
    ensures GetDownloadInfo(t, dataFolder) == GetDownloadInfo(u, dataFolder)
  {
    var keys := [CsvFileNameKey, CsvDownloadUrlKey, ZipDownloadUrlKey, ZipFileNameKey,
                 CsvZipExtractPathKey, MetadataUrlKey, MetadataFileSuffixKey];
    forall i | 0 <= i < |keys| ensures Property(t, keys[i]) == Property(u, keys[i]) {
      assert keys[i] in keys;
    }
    assert Property(t, keys[0]) == Property(u, keys[0]);
    assert Property(t, keys[6]) == Property(u, keys[6]);
  }

  // ---------------------------------------------------------------------
  // `_download_table_and_metadata` as a plan.

  /** A transfer the function would make: a download to a path (`None`: no
      file name was given, so `urlretrieve` picks a temporary file) or the
      extraction of an archive member into the CSV path. */
  datatype Action = Fetch(url: string, dest: Option<string>) | Extract(archive: string, member: string, csvPath: string)

  /** The exceptions the function raises on the archive branch:
      `os.path.exists(None)` when an archive URL comes without a zip file
      name; `zipfile.ZipFile(None)` when the CSV must be extracted but there
      is no zip file name; `ZipFile` of a path that does not exist; and
      `z.read(None)` when no member path is given (raised after
      `open(fp_csv, 'wb')` has created the file). */
  datatype PlanError = ExistsOfNone | ArchiveOfNone | ArchiveMissing(path: string) | MemberOfNone

  /** The actions planned so far and the files present after them. */
  datatype Step = Step(actions: seq<Action>, present: set<string>)

  function Added(present: set<string>, dest: Option<string>): set<string>
  {
    match dest
    case None => present
    case Some(p) => present + {p}
  }

  /** Python's f-string rendering of an optional path. */
  function PathText(p: Option<string>): string
  {
    match p
    case None => "None"
    case Some(s) => s
  }

  /** `f"{fp}-{metadata_file_suffix}"`, next to the CSV when it has its own
      URL and next to the archive otherwise. */
  function SidecarPath(info: DownloadInfo): string
  {
    (if info.csvDownloadUrl.Some? then info.fpCsv else PathText(info.fpZip)) + "-" + info.metadataFileSuffix
  }

  /** Fetching the archive, when the table has an archive URL. */
  function ArchiveStep(info: DownloadInfo, overwrite: bool, present: set<string>): Result<Step, PlanError>
  {
    match info.zipDownloadUrl
    case None => Ok(Step([], present))
    case Some(url) =>
      if overwrite then Ok(Step([Fetch(url, info.fpZip)], Added(present, info.fpZip)))
      else
        match info.fpZip
        case None => Err(ExistsOfNone)
        case Some(zp) =>
          if zp !in present then Ok(Step([Fetch(url, Some(zp))], present + {zp})) else Ok(Step([], present))
  }

  /** Extracting the CSV from the archive, which must exist by then. */
  function ExtractStep(info: DownloadInfo, z: Step): Result<Step, PlanError>
  {
    match info.fpZip
    case None => Err(ArchiveOfNone)
    case Some(zp) =>
      if zp !in z.present then Err(ArchiveMissing(zp))
      else
        match info.csvZipExtractPath
        case None => Err(MemberOfNone)
        case Some(m) => Ok(Step(z.actions + [Extract(zp, m, info.fpCsv)], z.present + {info.fpCsv}))
  }

  /** The CSV: downloaded directly when it has a URL, otherwise extracted
      from the archive unless it is already present. */
  function DataStep(info: DownloadInfo, overwrite: bool, present: set<string>): Result<Step, PlanError>
  {
    match info.csvDownloadUrl
    case Some(url) =>
      if overwrite || info.fpCsv !in present
      then Ok(Step([Fetch(url, Some(info.fpCsv))], present + {info.fpCsv}))
      else Ok(Step([], present))
    case None =>
      match ArchiveStep(info, overwrite, present)
      case Err(e) => Err(e)
      case Ok(z) => if info.fpCsv in z.present then Ok(z) else ExtractStep(info, z)
  }

  /** The metadata sidecar, when the table has a metadata URL. */
  function SidecarStep(info: DownloadInfo, overwrite: bool, present: set<string>): Step
  {
    match info.metadataUrl
    case None => Step([], present)
    case Some(url) =>
      var p := SidecarPath(info);
      if overwrite || p !in present then Step([Fetch(url, Some(p))], present + {p}) else Step([], present)
  }

  /** Where an action writes, if it names a path. */
  function Destination(a: Action): Option<string>
  {
    match a
    case Fetch(_, dest) => dest
    case Extract(_, _, csvPath) => Some(csvPath)
  }

  /** `_download_table_and_metadata`: the transfers in order, and the files
      present afterwards. Only the archive branch can fail; a failure stops
      the whole download. */
  function PlanDownload(info: DownloadInfo, overwrite: bool, present: set<string>): (r: Result<Step, PlanError>)
    ensures r.Ok? ==> present <= r.value.present
    ensures r.Ok? ==> forall a :: a in r.value.actions && Destination(a).Some? ==> Destination(a).value in r.value.present
    ensures r.Err? ==> info.csvDownloadUrl.None?
  {
    match DataStep(info, overwrite, present)
    case Err(e) => Err(e)
    case Ok(d) =>
      var m := SidecarStep(info, overwrite, d.present);
      Ok(Step(d.actions + m.actions, m.present))
  }

  /** Without `overwrite_existing_files`, no action writes to a file that is
      already present, and every action names its destination. */
  lemma PlanKeepsExistingFiles(info: DownloadInfo, present: set<string>)
    requires PlanDownload(info, false, present).Ok?
    ensures forall a :: a in PlanDownload(info, false, present).value.actions ==>
      Destination(a).Some? && Destination(a).value !in present
  {
  }

  /** Once the files a run without overwriting leaves behind are present,
      whatever else is, another such run plans nothing at all. */
  lemma PlanIdempotent(info: DownloadInfo, present: set<string>, later: set<string>)
    requires PlanDownload(info, false, present).Ok?
    requires PlanDownload(info, false, present).value.present <= later
    ensures PlanDownload(info, false, later) == Ok(Step([], later))
  {
    var d := DataStep(info, false, present).value;
    var after := PlanDownload(info, false, present).value.present;
    assert d.present <= after;
    if info.csvDownloadUrl.None? {
      var z := ArchiveStep(info, false, present).value;
      assert z.present <= d.present;
      assert ArchiveStep(info, false, later) == Ok(Step([], later));
    }
    assert DataStep(info, false, later) == Ok(Step([], later));
    assert SidecarStep(info, false, later) == Step([], later);
    var none: seq<Action> := [];
    assert none + none == none;
  }

  /** When the CSV has its own URL, the archive settings play no part. */
  lemma CsvUrlIgnoresArchive(info: DownloadInfo, overwrite: bool, present: set<string>)
    requires info.csvDownloadUrl.Some?
    ensures PlanDownload(info, overwrite, present)
         == PlanDownload(info.(zipDownloadUrl := None, fpZip := None, csvZipExtractPath := None), overwrite, present)
  {
  }

  /** With the default suffix the sidecar name gets two dashes, because the
      suffix already starts with one: `data/x.csv--metadata.txt`. The
      suffix is the default whenever the table names none (`GetDownloadInfo`). */
  lemma DefaultSidecarHasDoubleDash(info: DownloadInfo)
    requires info.metadataFileSuffix == DefaultMetadataSuffix
    ensures EndsWith(SidecarPath(info), "--metadata.txt")
  {
    var head := if info.csvDownloadUrl.Some? then info.fpCsv else PathText(info.fpZip);
    var path := SidecarPath(info);
    assert path == head + "--metadata.txt";
    assert path[|path| - 14..] == "--metadata.txt";
  }

  /** A table whose CSV must come out of an archive fails when the archive
      is neither present nor fetched, or when no member path is given. With
      no archive URL the overwrite flag plays no part. */
  lemma ExtractionFailures(info: DownloadInfo, overwrite: bool, present: set<string>)
    requires info.csvDownloadUrl.None? && info.zipDownloadUrl.None? && info.fpCsv !in present
    ensures info.fpZip.None? ==> PlanDownload(info, overwrite, present) == Err(ArchiveOfNone)
    ensures info.fpZip.Some? && info.fpZip.value !in present ==>
      PlanDownload(info, overwrite, present) == Err(ArchiveMissing(info.fpZip.value))
    ensures info.fpZip.Some? && info.fpZip.value in present && info.csvZipExtractPath.None? ==>
      PlanDownload(info, overwrite, present) == Err(MemberOfNone)
  {
    assert ArchiveStep(info, overwrite, present) == Ok(Step([], present));
  }

  /** An archive URL without a zip file name fails on `os.path.exists(None)`
      when not overwriting. When overwriting, `urlretrieve` fetches into a
      temporary file, and an absent CSV then fails on `ZipFile(None)`. */
  lemma ArchiveUrlWithoutFileName(info: DownloadInfo, present: set<string>)
    requires info.csvDownloadUrl.None? && info.zipDownloadUrl.Some? && info.fpZip.None?
    ensures PlanDownload(info, false, present) == Err(ExistsOfNone)
    ensures info.fpCsv !in present ==> PlanDownload(info, true, present) == Err(ArchiveOfNone)
  {
    assert ArchiveStep(info, true, present) == Ok(Step([Fetch(info.zipDownloadUrl.value, None)], present));
  }

  /** A successful plan leaves the CSV present, and the metadata sidecar too
      when the table has a metadata URL. */
  lemma PlanAchieves(info: DownloadInfo, overwrite: bool, present: set<string>)
    requires PlanDownload(info, overwrite, present).Ok?
    ensures info.fpCsv in PlanDownload(info, overwrite, present).value.present
    ensures info.metadataUrl.Some? ==> SidecarPath(info) in PlanDownload(info, overwrite, present).value.present
  {
    assert info.fpCsv in DataStep(info, overwrite, present).value.present;
  }

  /** The sidecar path is longer than the path it is put next to. */
  lemma SidecarIsLonger(info: DownloadInfo)
    ensures info.csvDownloadUrl.Some? ==> SidecarPath(info) != info.fpCsv
    ensures info.csvDownloadUrl.None? ==> info.fpZip != Some(SidecarPath(info))
  {
    if info.fpZip.Some? && info.csvDownloadUrl.None? {
      assert |SidecarPath(info)| > |info.fpZip.value|;
    }
  }

  /** A CSV with its own URL is fetched into the CSV path exactly when
      overwriting or when the CSV is absent. */
  lemma CsvFetchDecision(info: DownloadInfo, overwrite: bool, present: set<string>, url: string)
    requires info.csvDownloadUrl == Some(url)
    ensures PlanDownload(info, overwrite, present).Ok?
    ensures Fetch(url, Some(info.fpCsv)) in PlanDownload(info, overwrite, present).value.actions
        <==> overwrite || info.fpCsv !in present
  {
    SidecarIsLonger(info);
    var d := DataStep(info, overwrite, present).value;
    var m := SidecarStep(info, overwrite, d.present);
    assert forall a :: a in m.actions ==> Destination(a) == Some(SidecarPath(info));
    assert PlanDownload(info, overwrite, present).value.actions == d.actions + m.actions;
  }

  /** A CSV without its own URL is extracted from the archive exactly when
      it is absent and the archive fetch has not itself written the CSV
      path; the extraction reads the named member of the archive into the
      CSV path. */
  lemma ExtractDecision(info: DownloadInfo, overwrite: bool, present: set<string>)
    requires info.csvDownloadUrl.None? && PlanDownload(info, overwrite, present).Ok?
    ensures var actions := PlanDownload(info, overwrite, present).value.actions;
            var extracts := info.fpCsv !in present && !(info.zipDownloadUrl.Some? && info.fpZip == Some(info.fpCsv));
            && (extracts ==>
                  info.fpZip.Some? && info.csvZipExtractPath.Some?
                  && Extract(info.fpZip.value, info.csvZipExtractPath.value, info.fpCsv) in actions)
            && (!extracts ==> forall a :: a in actions ==> !a.Extract?)
  {
    var d := DataStep(info, overwrite, present).value;
    var m := SidecarStep(info, overwrite, d.present);
    assert forall a :: a in m.actions ==> a.Fetch?;
    assert PlanDownload(info, overwrite, present).value.actions == d.actions + m.actions;
  }

  /** The metadata sidecar is fetched exactly when overwriting or when it is
      absent, provided the archive branch does not put the
      CSV at the sidecar's own path. */
  lemma SidecarDecision(info: DownloadInfo, overwrite: bool, present: set<string>, url: string)
    requires info.metadataUrl == Some(url) && PlanDownload(info, overwrite, present).Ok?
    requires info.csvDownloadUrl.None? ==> SidecarPath(info) != info.fpCsv
    ensures Fetch(url, Some(SidecarPath(info))) in PlanDownload(info, overwrite, present).value.actions
        <==> overwrite || SidecarPath(info) !in present
  {
    SidecarIsLonger(info);
    var d := DataStep(info, overwrite, present).value;
    var m := SidecarStep(info, overwrite, d.present);
    assert d.present <= present + {info.fpCsv} + (if info.fpZip.Some? then {info.fpZip.value} else {});
    assert forall a :: a in d.actions ==> Destination(a) == Some(info.fpCsv) || Destination(a) == info.fpZip;
    assert SidecarPath(info) in present <==> SidecarPath(info) in d.present;
    assert PlanDownload(info, overwrite, present).value.actions == d.actions + m.actions;
  }

  /** When overwriting, the CSV URL, or else the archive URL, is fetched
      first, and a metadata URL is fetched last, whatever is present. */
  lemma OverwriteRefetches(info: DownloadInfo, present: set<string>)
    requires PlanDownload(info, true, present).Ok?
    ensures var actions := PlanDownload(info, true, present).value.actions;
            && (info.csvDownloadUrl.Some? ==>
                  |actions| > 0 && actions[0] == Fetch(info.csvDownloadUrl.value, Some(info.fpCsv)))
            && (info.csvDownloadUrl.None? && info.zipDownloadUrl.Some? ==>
                  |actions| > 0 && actions[0] == Fetch(info.zipDownloadUrl.value, info.fpZip))
            && (info.metadataUrl.Some? ==>
                  |actions| > 0 && actions[|actions| - 1] == Fetch(info.metadataUrl.value, Some(SidecarPath(info))))
  {
    var d := DataStep(info, true, present).value;
    var m := SidecarStep(info, true, d.present);
    assert PlanDownload(info, true, present).value.actions == d.actions + m.actions;
    if info.csvDownloadUrl.None? && info.zipDownloadUrl.Some? {
      var z := ArchiveStep(info, true, present).value;
      assert z.actions == [Fetch(info.zipDownloadUrl.value, info.fpZip)];
      assert |d.actions| > 0 && d.actions[0] == z.actions[0];
    }
  }

  // ---------------------------------------------------------------------
  // The `overwrite_existing_files` documentation against the code.

  /** As written: with the CSV already present and no overwriting, a table
      whose CSV comes from an archive still downloads the missing archive. */
  lemma ArchiveFetchedWhileCsvPresent()
    ensures var info := DownloadInfo("x.csv", None, Some("u"), Some("z.zip"), None, None,
                                     DefaultMetadataSuffix, "d/x.csv", Some("d/z.zip"));
            PlanDownload(info, false, {"d/x.csv"}) == Ok(Step([Fetch("u", Some("d/z.zip"))], {"d/x.csv", "d/z.zip"}))
  {
    var info := DownloadInfo("x.csv", None, Some("u"), Some("z.zip"), None, None,
                             DefaultMetadataSuffix, "d/x.csv", Some("d/z.zip"));
    assert "d/z.zip" != "d/x.csv" by { assert "d/z.zip"[2] != "d/x.csv"[2]; }
    assert "d/z.zip" !in {"d/x.csv"};
    assert {"d/x.csv"} + {"d/z.zip"} == {"d/x.csv", "d/z.zip"};
    var z := Step([Fetch("u", Some("d/z.zip"))], {"d/x.csv", "d/z.zip"});
    assert ArchiveStep(info, false, {"d/x.csv"}) == Ok(z);
    assert DataStep(info, false, {"d/x.csv"}) == Ok(z);
    assert z.actions + [] == z.actions;
  }

  /** As written: when overwriting, a CSV that comes from an archive and is
      already present is not extracted again, although the archive is
      fetched again. */
  lemma OverwriteKeepsArchivedCsv()
    ensures var info := DownloadInfo("x.csv", None, Some("u"), Some("z.zip"), Some("x.csv"), None,
                                     DefaultMetadataSuffix, "d/x.csv", Some("d/z.zip"));
            PlanDownload(info, true, {"d/x.csv", "d/z.zip"})
              == Ok(Step([Fetch("u", Some("d/z.zip"))], {"d/x.csv", "d/z.zip"}))
  {
    var info := DownloadInfo("x.csv", None, Some("u"), Some("z.zip"), Some("x.csv"), None,
                             DefaultMetadataSuffix, "d/x.csv", Some("d/z.zip"));
    var files := {"d/x.csv", "d/z.zip"};
    var z := Step([Fetch("u", Some("d/z.zip"))], files);
    assert files + {"d/z.zip"} == files;
    assert ArchiveStep(info, true, files) == Ok(z);
    assert DataStep(info, true, files) == Ok(z);
    assert z.actions + [] == z.actions;
  }

  /** The CSV step the documentation describes: that of the code, except
      that when overwriting, a CSV from an archive is extracted again. */
  function DocumentedDataStep(info: DownloadInfo, overwrite: bool, present: set<string>): Result<Step, PlanError>
  {
    match info.csvDownloadUrl
    case Some(_) => DataStep(info, overwrite, present)
    case None =>
      match ArchiveStep(info, overwrite, present)
      case Err(e) => Err(e)
      case Ok(z) => if !overwrite && info.fpCsv in z.present then Ok(z) else ExtractStep(info, z)
  }

  /** The plan the documentation describes: without overwriting, an existing
      CSV means no download at all for that table; when overwriting, the CSV
      is written again whichever way it is obtained. It agrees with the
      code's plan whenever the code keeps those promises. */
  function PlanAsDocumented(info: DownloadInfo, overwrite: bool, present: set<string>): (r: Result<Step, PlanError>)
    ensures !overwrite && info.fpCsv in present ==> r == Ok(Step([], present))
    ensures !overwrite && info.fpCsv !in present ==> r == PlanDownload(info, false, present)
    ensures overwrite && info.csvDownloadUrl.Some? ==> r == PlanDownload(info, true, present)
  {
    if !overwrite && info.fpCsv in present then Ok(Step([], present))
    else
      match DocumentedDataStep(info, overwrite, present)
      case Err(e) => Err(e)
      case Ok(d) =>
        var m := SidecarStep(info, overwrite, d.present);
        Ok(Step(d.actions + m.actions, m.present))
  }

  /** When overwriting, the documented plan writes the CSV: it fetches the
      CSV URL into the CSV path, or extracts the named member of the archive
      into it. */
  lemma DocumentedOverwriteWritesCsv(info: DownloadInfo, present: set<string>)
    requires PlanAsDocumented(info, true, present).Ok?
    ensures var actions := PlanAsDocumented(info, true, present).value.actions;
            && (info.csvDownloadUrl.Some? ==> Fetch(info.csvDownloadUrl.value, Some(info.fpCsv)) in actions)
            && (info.csvDownloadUrl.None? ==>
                  info.fpZip.Some? && info.csvZipExtractPath.Some?
                  && Extract(info.fpZip.value, info.csvZipExtractPath.value, info.fpCsv) in actions)
  {
    var d := DocumentedDataStep(info, true, present).value;
    var m := SidecarStep(info, true, d.present);
    assert PlanAsDocumented(info, true, present).value.actions == d.actions + m.actions;
    if info.csvDownloadUrl.Some? {
      assert Fetch(info.csvDownloadUrl.value, Some(info.fpCsv)) in d.actions;
    } else {
      assert Extract(info.fpZip.value, info.csvZipExtractPath.value, info.fpCsv) in d.actions;
    }
  }

  /** The documented plan keeps what the code's plan promises: without
      overwriting nothing already present is written, and a second run plans
      nothing. With the CSV present it plans nothing at all. */
  lemma DocumentedPlanKeepsPromises(info: DownloadInfo, present: set<string>)
    requires PlanAsDocumented(info, false, present).Ok?
    ensures info.fpCsv in present ==> PlanAsDocumented(info, false, present).value.actions == []
    ensures forall a :: a in PlanAsDocumented(info, false, present).value.actions ==>
      Destination(a).Some? && Destination(a).value !in present
    ensures var after := PlanAsDocumented(info, false, present).value.present;
            PlanAsDocumented(info, false, after) == Ok(Step([], after))
  {
    if info.fpCsv !in present {
      PlanKeepsExistingFiles(info, present);
      var after := PlanDownload(info, false, present).value.present;
      PlanIdempotent(info, present, after);
    }
  }

  // ---------------------------------------------------------------------
  // `download_table_group`.

  /** `len(csv_file_name_list) == 0 or csv_file_name in csv_file_name_list`. */
  predicate Selected(selection: seq<Literal>, csvFileName: string)
  {
    |selection| == 0 || Str(csvFileName) in selection
  }

  /** `None` and an empty list both select every table; a single name
      selects exactly the tables with that name; a single integer matches
      none. */
  lemma SelectionRule(name: string)
    ensures forall n :: Selected(ToIterator(Null), n)
    ensures forall n :: Selected(ToIterator(Items([])), n)
    ensures forall n :: Selected(ToIterator(Scalar(Str(name))), n) <==> n == name
    ensures forall i: int, n :: !Selected(ToIterator(Scalar(Int(i))), n)
  {
  }

  /** The arguments of `download_table_group` that every table shares: the
      normalised `csv_file_names`, the data folder and the overwrite flag. */
  datatype Settings = Settings(selection: seq<Literal>, dataFolder: string, overwrite: bool)

  datatype DownloadError = Info(info: InfoError) | Plan(plan: PlanError)

  /** One table of the pass: the table with its new `url`, the transfers
      planned for it, and the files present afterwards. */
  datatype TableOutcome = TableOutcome(table: Table, actions: seq<Action>, present: set<string>)

  /** The body of the loop in `download_table_group` for one table: read its
      download information, plan the downloads when it is selected, and set
      `url` to `csv_file_name` either way. */
  function DownloadTable(s: Settings, t: Table, files: set<string>): (r: Result<TableOutcome, DownloadError>)
    ensures CsvFileNameKey !in t.properties ==> r == Err(Info(MissingCsvFileName))
    ensures CsvFileNameKey in t.properties && !Selected(s.selection, t.properties[CsvFileNameKey]) ==>
      r == Ok(TableOutcome(t.(url := Some(t.properties[CsvFileNameKey])), [], files))
    ensures CsvFileNameKey in t.properties && Selected(s.selection, t.properties[CsvFileNameKey]) ==>
      var plan := PlanDownload(GetDownloadInfo(t, s.dataFolder).value, s.overwrite, files);
      && (r.Ok? <==> plan.Ok?)
      && (plan.Err? ==> r == Err(Plan(plan.error)))
      && (plan.Ok? ==> r == Ok(TableOutcome(t.(url := Some(t.properties[CsvFileNameKey])),
                                            plan.value.actions, plan.value.present)))
    ensures r.Ok? ==> files <= r.value.present
    ensures r.Ok? && !s.overwrite ==> forall a :: a in r.value.actions ==>
      Destination(a).Some? && Destination(a).value !in files
  {
    match GetDownloadInfo(t, s.dataFolder)
    case Err(e) => Err(Info(e))
    case Ok(info) =>
      var table := t.(url := Some(info.csvFileName));
      if !Selected(s.selection, info.csvFileName) then Ok(TableOutcome(table, [], files))
      else
        match PlanDownload(info, s.overwrite, files)
        case Err(e) => Err(Plan(e))
        case Ok(p) =>
          if s.overwrite then Ok(TableOutcome(table, p.actions, p.present))
          else
            PlanKeepsExistingFiles(info, files);
            Ok(TableOutcome(table, p.actions, p.present))
  }

  /** A selected table with its own CSV URL and no metadata URL, whose CSV
      is absent, fetches exactly that URL into `<data folder>/<csv_file_name>`. */
  lemma DirectCsvTable(s: Settings, t: Table, files: set<string>, name: string, url: string)
    requires CsvFileNameKey in t.properties && t.properties[CsvFileNameKey] == name
    requires CsvDownloadUrlKey in t.properties && t.properties[CsvDownloadUrlKey] == url
    requires MetadataUrlKey !in t.properties
    requires Selected(s.selection, name) && PathJoin(s.dataFolder, name) !in files
    ensures var fp := PathJoin(s.dataFolder, name);
            DownloadTable(s, t, files) == Ok(TableOutcome(t.(url := Some(name)), [Fetch(url, Some(fp))], files + {fp}))
  {
    var info := GetDownloadInfo(t, s.dataFolder).value;
    var fp := PathJoin(s.dataFolder, name);
    assert DataStep(info, s.overwrite, files) == Ok(Step([Fetch(url, Some(fp))], files + {fp}));
    assert SidecarStep(info, s.overwrite, files + {fp}) == Step([], files + {fp});
    assert [Fetch(url, Some(fp))] + [] == [Fetch(url, Some(fp))];
  }

  /** The files present before table `i` of a pass. */
  function Before(present: set<string>, outs: seq<TableOutcome>, i: nat): set<string>
    requires i <= |outs|
  {
    if i == 0 then present else outs[i - 1].present
  }

  /** `outs` are the outcomes of the first `|outs|` tables of a pass that
      starts with the files `present`, each table starting from the files
      the one before it left. */
  predicate Chained(s: Settings, tables: seq<Table>, present: set<string>, outs: seq<TableOutcome>)
  {
    |outs| <= |tables| &&
    forall i {:trigger DownloadTable(s, tables[i], Before(present, outs, i))} :: 0 <= i < |outs| ==>
      DownloadTable(s, tables[i], Before(present, outs, i)) == Ok(outs[i])
  }

  /** The outcome of a pass: every table with its `url` set, the actions
      planned for each table, and the files present at the end. */
  datatype Pass = Pass(outcomes: seq<TableOutcome>, present: set<string>)

  /** What the loop of `download_table_group` yields: every table's outcome
      in order, or the error of the first table that fails, every table
      before it having succeeded. */
  ghost predicate PassOutcome(s: Settings, tables: seq<Table>, present: set<string>, r: Result<Pass, DownloadError>)
  {
    && (r.Ok? ==> |r.value.outcomes| == |tables| && Chained(s, tables, present, r.value.outcomes)
                  && r.value.present == Before(present, r.value.outcomes, |tables|))
    && (r.Err? ==> exists outs :: Chained(s, tables, present, outs) && |outs| < |tables|
                    && DownloadTable(s, tables[|outs|], Before(present, outs, |outs|)) == Err(r.error))
  }

  lemma ChainedSnoc(s: Settings, tables: seq<Table>, present: set<string>, outs: seq<TableOutcome>, o: TableOutcome)
    requires Chained(s, tables, present, outs) && |outs| < |tables|
    requires DownloadTable(s, tables[|outs|], Before(present, outs, |outs|)) == Ok(o)
    ensures Chained(s, tables, present, outs + [o])
    ensures Before(present, outs + [o], |outs| + 1) == o.present
  {
    var more := outs + [o];
    forall i | 0 <= i < |outs| ensures more[i] == outs[i] && Before(present, more, i) == Before(present, outs, i) {
      assert i > 0 ==> more[i - 1] == outs[i - 1];
    }
    forall i | 0 <= i < |more| ensures DownloadTable(s, tables[i], Before(present, more, i)) == Ok(more[i]) {
      if i < |outs| {
        assert DownloadTable(s, tables[i], Before(present, outs, i)) == Ok(outs[i]);
      }
    }
  }

  /** The loop of `download_table_group` over every table of the group. */
  method DownloadTableGroup(tables: seq<Table>, csvFileNames: Arg, dataFolder: string,
                            overwrite: bool, present: set<string>)
    returns (r: Result<Pass, DownloadError>)
    ensures PassOutcome(Settings(ToIterator(csvFileNames), dataFolder, overwrite), tables, present, r)
  {
    var s := Settings(ToIterator(csvFileNames), dataFolder, overwrite);
    var outs: seq<TableOutcome> := [];
    var files := present;
    var i := 0;
    while i < |tables|
      invariant 0 <= i <= |tables| && |outs| == i
      invariant Chained(s, tables, present, outs)
      invariant files == Before(present, outs, i)
    {
      var step := DownloadTable(s, tables[i], files);
      if step.Err? {
        assert Chained(s, tables, present, outs) && |outs| < |tables|
               && DownloadTable(s, tables[|outs|], Before(present, outs, |outs|)) == Err(step.error);
        return Err(step.error);
      }
      ChainedSnoc(s, tables, present, outs, step.value);
      outs := outs + [step.value];
      files := step.value.present;
      i := i + 1;
    }
    r := Ok(Pass(outs, files));
  }

  /** Each table's outcome leaves at least the files the pass started with,
      and the files only grow along the pass. */
  lemma {:induction false} ChainGrows(s: Settings, tables: seq<Table>, present: set<string>,
                                      outs: seq<TableOutcome>, i: nat, j: nat)
    requires Chained(s, tables, present, outs) && i <= j <= |outs|
    ensures Before(present, outs, i) <= Before(present, outs, j)
    decreases j
  {
    if i < j {
      ChainGrows(s, tables, present, outs, i, j - 1);
      TableGrows(s, tables[j - 1], Before(present, outs, j - 1), outs[j - 1]);
      assert Before(present, outs, j) == outs[j - 1].present;
    }
  }

  lemma TableGrows(s: Settings, t: Table, files: set<string>, o: TableOutcome)
    requires DownloadTable(s, t, files) == Ok(o)
    ensures files <= o.present
  {
  }

  /** What every table of a pass, or of the part of it that ran, gets:
      `csv_file_name` is present and becomes `url`; an unselected table plans
      nothing; and without overwriting no transfer writes to a file present
      when the pass started. */
  lemma PassFacts(s: Settings, tables: seq<Table>, present: set<string>, outs: seq<TableOutcome>)
    requires Chained(s, tables, present, outs)
    ensures forall i :: 0 <= i < |outs| ==>
      CsvFileNameKey in tables[i].properties
      && outs[i].table == tables[i].(url := Some(tables[i].properties[CsvFileNameKey]))
    ensures forall i :: 0 <= i < |outs| && !Selected(s.selection, tables[i].properties[CsvFileNameKey]) ==>
      outs[i].actions == []
    ensures present <= Before(present, outs, |outs|)
    ensures !s.overwrite ==> forall i, a :: 0 <= i < |outs| && a in outs[i].actions ==>
      Destination(a).Some? && Destination(a).value !in present
  {
    forall i | 0 <= i < |outs|
      ensures CsvFileNameKey in tables[i].properties
      ensures outs[i].table == tables[i].(url := Some(tables[i].properties[CsvFileNameKey]))
      ensures !Selected(s.selection, tables[i].properties[CsvFileNameKey]) ==> outs[i].actions == []
      ensures !s.overwrite ==> forall a :: a in outs[i].actions ==> Destination(a).Some? && Destination(a).value !in present
    {
      assert DownloadTable(s, tables[i], Before(present, outs, i)) == Ok(outs[i]);
      ChainGrows(s, tables, present, outs, 0, i);
    }
    ChainGrows(s, tables, present, outs, 0, |outs|);
  }

  /** Two chains over the same tables agree on their common part. */
  lemma {:induction false} ChainedAgree(s: Settings, tables: seq<Table>, present: set<string>,
                                        a: seq<TableOutcome>, b: seq<TableOutcome>, n: nat)
    requires Chained(s, tables, present, a) && Chained(s, tables, present, b)
    requires n <= |a| && n <= |b|
    ensures forall k :: 0 <= k < n ==> a[k] == b[k]
    ensures Before(present, a, n) == Before(present, b, n)
  {
    if n > 0 {
      ChainedAgree(s, tables, present, a, b, n - 1);
      assert DownloadTable(s, tables[n - 1], Before(present, a, n - 1)) == Ok(a[n - 1]);
      assert DownloadTable(s, tables[n - 1], Before(present, b, n - 1)) == Ok(b[n - 1]);
    }
  }

  /** Table `i` of a finished pass without overwriting, run again from the
      files the pass left, plans nothing and leaves them as they are. */
  lemma SettledTable(s: Settings, tables: seq<Table>, present: set<string>, outs: seq<TableOutcome>, i: nat)
    requires !s.overwrite && Chained(s, tables, present, outs) && i < |outs|
    ensures DownloadTable(s, tables[i], Before(present, outs, |outs|))
            == Ok(TableOutcome(outs[i].table, [], Before(present, outs, |outs|)))
  {
    assert DownloadTable(s, tables[i], Before(present, outs, i)) == Ok(outs[i]);
    ChainGrows(s, tables, present, outs, i + 1, |outs|);
    SettledStep(s, tables[i], Before(present, outs, i), outs[i], Before(present, outs, |outs|));
  }

  /** A table run without overwriting, run again once the files it left are
      present, plans nothing. */
  lemma SettledStep(s: Settings, t: Table, files: set<string>, o: TableOutcome, later: set<string>)
    requires !s.overwrite && DownloadTable(s, t, files) == Ok(o) && o.present <= later
    ensures DownloadTable(s, t, later) == Ok(TableOutcome(o.table, [], later))
  {
    if Selected(s.selection, t.properties[CsvFileNameKey]) {
      PlanIdempotent(GetDownloadInfo(t, s.dataFolder).value, files, later);
    }
  }

  /** The pass that plans nothing: every table keeps the outcome's table and
      the files stay `files`. */
  function Quiet(outs: seq<TableOutcome>, files: set<string>): (r: seq<TableOutcome>)
    ensures |r| == |outs|
    ensures forall i :: 0 <= i < |outs| ==> r[i] == TableOutcome(outs[i].table, [], files)
  {
    seq(|outs|, i requires 0 <= i < |outs| => TableOutcome(outs[i].table, [], files))
  }

  lemma QuietChain(s: Settings, tables: seq<Table>, present: set<string>, outs: seq<TableOutcome>)
    requires !s.overwrite && Chained(s, tables, present, outs) && |outs| == |tables|
    ensures var last := Before(present, outs, |outs|);
            && Chained(s, tables, last, Quiet(outs, last))
            && forall n :: 0 <= n <= |outs| ==> Before(last, Quiet(outs, last), n) == last
  {
    var last := Before(present, outs, |outs|);
    var quiet := Quiet(outs, last);
    forall n | 0 <= n <= |outs| ensures Before(last, quiet, n) == last {
    }
    forall i | 0 <= i < |quiet| ensures DownloadTable(s, tables[i], Before(last, quiet, i)) == Ok(quiet[i]) {
      SettledTable(s, tables, present, outs, i);
    }
  }

  /** Download idempotence: a second pass without overwriting, run from the
      files the first pass left, succeeds, plans no transfer for any table
      and leaves the files as they are. */
  lemma PassIdempotent(s: Settings, tables: seq<Table>, present: set<string>,
                       first: Pass, second: Result<Pass, DownloadError>)
    requires !s.overwrite
    requires PassOutcome(s, tables, present, Ok(first))
    requires PassOutcome(s, tables, first.present, second)
    ensures second.Ok?
    ensures |second.value.outcomes| == |tables|
    ensures forall i :: 0 <= i < |tables| ==> second.value.outcomes[i].actions == []
    ensures second.value.present == first.present
  {
    var outs := first.outcomes;
    var last := first.present;
    QuietChain(s, tables, present, outs);
    var quiet := Quiet(outs, last);
    forall other | Chained(s, tables, last, other) && |other| < |tables|
      ensures DownloadTable(s, tables[|other|], Before(last, other, |other|)) == Ok(quiet[|other|])
    {
      ChainedAgree(s, tables, last, other, quiet, |other|);
    }
    if second.Ok? {
      ChainedAgree(s, tables, last, second.value.outcomes, quiet, |tables|);
    }
  }
}

=== FILE: iterators.dfy ===
/** The value shapes the filter and index helpers accept, and the normaliser
    that turns any of them into a list (`_convert_to_iterator`). */
module Iterators {

  /** A scalar the SQL builders render: a Python `str` or `int`. */
  datatype Literal = Str(s: string) | Int(i: int)

  /** An argument that may be `None`, one scalar, or a list of scalars. */
  datatype Arg = Null | Scalar(lit: Literal) | Items(items: seq<Literal>)

  /** `_convert_to_iterator`: `None` becomes the empty list, a string and any
      other scalar become a one-element list, and a list is returned as is. */
  function ToIterator(a: Arg): (r: seq<Literal>)
    ensures a.Null? ==> r == []
    ensures a.Scalar? ==> r == [a.lit]
    ensures a.Items? ==> r == a.items
    ensures |r| == 0 <==> a == Null || a == Items([])
  {
    match a
    case Null => []
    case Scalar(Str(_)) => [a.lit]
    case Items(xs) => xs
    case Scalar(Int(_)) => [a.lit]
  }
}

=== FILE: metadata.dfy ===
/** The table-group metadata as the lookups see it, and the three lookups
    over it. The group is passed in directly: reading it from the JSON file
    in the data folder is not part of this model. */
module Metadata {
  import opened Wrappers
  import opened Schema

  /** The key `get_metadata_table_dict` matches on. It names the
      `csvw_functions` vocabulary, not the `csvw_functions_extra` one. */
  const CoreSqlTableNameKey := "https://purl.org/berg/csvw_functions/vocab/sql_table_name"

  /** The key `get_metadata_sql_table_names` and `_get_import_info` read. */
  const ExtraSqlTableNameKey := "https://purl.org/berg/csvw_functions_extra/vocab/sql_table_name"

  /** A table of the normalised table group: its extension properties, by
      property URI, each with its `@value`; its schema; and its `url`. */
  datatype Table = Table(properties: map<string, string>, schema: TableSchema, url: Option<string>)

  /** `metadata_table_dict[key]['@value'] == name`. */
  predicate Carries(t: Table, key: string, name: string)
  {
    key in t.properties && t.properties[key] == name
  }

  /** `Missing` is the `KeyError` of a table without the key; `NotFound` the
      bare `Exception` raised when the loop ends without a match. */
  datatype LookupError = Missing(table: nat) | NotFound

  /** The first `n` tables all carry the key, with another value. */
  predicate PassedOver(tables: seq<Table>, key: string, name: string, n: nat)
    requires n <= |tables|
  {
    forall j :: 0 <= j < n ==> key in tables[j].properties && !Carries(tables[j], key, name)
  }

  lemma PassedOverShift(tables: seq<Table>, key: string, name: string, n: nat)
    requires 1 <= n <= |tables|
    ensures PassedOver(tables, key, name, n) <==>
      key in tables[0].properties && !Carries(tables[0], key, name) && PassedOver(tables[1..], key, name, n - 1)
  {
    assert forall j :: 1 <= j < n ==> tables[j] == tables[1..][j - 1];
  }

  /** `get_metadata_table_dict`: the first table whose `key` value is `name`.
      The loop reads the key of every table it passes, so a table without it
      stops the lookup with `Missing`; the end of the list gives `NotFound`. */
  function FindTable(tables: seq<Table>, key: string, name: string): (r: Result<Table, LookupError>)
    ensures r.Ok? ==> exists i :: 0 <= i < |tables| && PassedOver(tables, key, name, i)
                                  && Carries(tables[i], key, name) && r.value == tables[i]
    ensures r.Err? && r.error.Missing? ==>
      r.error.table < |tables| && PassedOver(tables, key, name, r.error.table)
      && key !in tables[r.error.table].properties
    ensures r.Err? && r.error.NotFound? ==> PassedOver(tables, key, name, |tables|)
  {
    if |tables| == 0 then Err(NotFound)
    else if key !in tables[0].properties then Err(Missing(0))
    else if tables[0].properties[key] == name then Ok(tables[0])
    else
      match FindTable(tables[1..], key, name)
      case Ok(t) =>
        ghost var i :| 0 <= i < |tables[1..]| && PassedOver(tables[1..], key, name, i)
                       && Carries(tables[1..][i], key, name) && t == tables[1..][i];
        PassedOverShift(tables, key, name, i + 1);
        Ok(t)
      case Err(Missing(i)) =>
        PassedOverShift(tables, key, name, i + 1);
        Err(Missing(i + 1))
      case Err(NotFound) =>
        PassedOverShift(tables, key, name, |tables|);
        Err(NotFound)
  }

  /** Exactly one outcome fits a given group, so the contract of `FindTable`
      determines it: success exactly when a table carrying `name` comes
      before any table without the key. */
  lemma FindTableSucceedsIff(tables: seq<Table>, key: string, name: string)
    ensures FindTable(tables, key, name).Ok? <==>
      exists i :: 0 <= i < |tables| && Carries(tables[i], key, name)
                  && forall j :: 0 <= j < i ==> key in tables[j].properties
  {
  }

  /** `cols[i]` is the first column named `name`. */
  predicate FirstNamed(cols: seq<Column>, name: string, i: int)
  {
    0 <= i < |cols| && cols[i].name == name && forall j :: 0 <= j < i ==> cols[j].name != name
  }

  /** What the column loop yields: the first column named `name` when there
      is one, the bare `Exception` otherwise. */
  ghost predicate ColumnOutcome(cols: seq<Column>, name: string, r: Result<Column, LookupError>)
  {
    && (r.Ok? <==> exists i :: 0 <= i < |cols| && cols[i].name == name)
    && (r.Ok? ==> exists i :: FirstNamed(cols, name, i) && r.value == cols[i])
    && (r.Err? ==> r.error == NotFound)
  }

  /** `get_metadata_column_dict`: the table lookup's error propagates;
      otherwise the column loop runs over the table found. */
  function FindColumn(tables: seq<Table>, key: string, tableName: string, columnName: string): (r: Result<Column, LookupError>)
    ensures FindTable(tables, key, tableName).Err? ==> r == Err(FindTable(tables, key, tableName).error)
    ensures FindTable(tables, key, tableName).Ok? ==>
      ColumnOutcome(FindTable(tables, key, tableName).value.schema.columns, columnName, r)
  {
    var found := FindTable(tables, key, tableName);
    if found.Err? then Err(found.error) else FirstColumnNamed(found.value.schema.columns, columnName)
  }

  /** The loop over a table's columns. */
  function FirstColumnNamed(cols: seq<Column>, name: string): (r: Result<Column, LookupError>)
    ensures ColumnOutcome(cols, name, r)
  {
    if |cols| == 0 then Err(NotFound)
    else if cols[0].name == name then
      assert FirstNamed(cols, name, 0);
      Ok(cols[0])
    else
      var rest := FirstColumnNamed(cols[1..], name);
      assert forall j :: 1 <= j < |cols| ==> cols[j] == cols[1..][j - 1];
      match rest
      case Ok(c) =>
        ghost var i :| FirstNamed(cols[1..], name, i) && c == cols[1..][i];
        assert FirstNamed(cols, name, i + 1);
        Ok(c)
      case Err(e) => Err(e)
  }

  /** `get_metadata_sql_table_names`: the `key` value of every table that
      carries one, in table order; tables without it are skipped. */
  function SqlTableNames(tables: seq<Table>, key: string): (r: seq<string>)
    ensures |r| <= |tables|
  {
    if |tables| == 0 then []
    else
      var last := tables[|tables| - 1];
      SqlTableNames(tables[..|tables| - 1], key) + (if key in last.properties then [last.properties[key]] else [])
  }

  /** The positions of the tables that carry `key`, in increasing order. */
  function Carrying(tables: seq<Table>, key: string): (r: seq<nat>)
    ensures forall k :: 0 <= k < |r| ==> r[k] < |tables| && key in tables[r[k]].properties
    ensures forall k, l :: 0 <= k < l < |r| ==> r[k] < r[l]
    ensures forall i :: 0 <= i < |tables| && key in tables[i].properties ==> i in r
  {
    if |tables| == 0 then []
    else
      var n := |tables| - 1;
      var init := Carrying(tables[..n], key);
      assert forall k :: 0 <= k < |init| ==> tables[init[k]] == tables[..n][init[k]];
      assert forall i :: 0 <= i < n ==> tables[i] == tables[..n][i];
      init + (if key in tables[n].properties then [n] else [])
  }

  /** The names come exactly from the tables that carry the key, one for
      each, in table order. */
  lemma {:induction false} SqlTableNamesExact(tables: seq<Table>, key: string)
    ensures |SqlTableNames(tables, key)| == |Carrying(tables, key)|
    ensures forall k :: 0 <= k < |Carrying(tables, key)| ==>
      SqlTableNames(tables, key)[k] == tables[Carrying(tables, key)[k]].properties[key]
  {
    if |tables| > 0 {
      var n := |tables| - 1;
      var prefix := tables[..n];
      SqlTableNamesExact(prefix, key);
      var init := Carrying(prefix, key);
      var names := SqlTableNames(prefix, key);
      var extra := if key in tables[n].properties then [n] else [];
      var more := if key in tables[n].properties then [tables[n].properties[key]] else [];
      assert Carrying(tables, key) == init + extra;
      assert SqlTableNames(tables, key) == names + more;
      forall k | 0 <= k < |init + extra|
        ensures (names + more)[k] == tables[(init + extra)[k]].properties[key]
      {
        if k < |init| {
          assert (init + extra)[k] == init[k];
          assert tables[init[k]] == prefix[init[k]];
        }
      }
    }
  }

  /** The two lookups key on different vocabularies: a table that carries only
      the `csvw_functions_extra` name is listed by `SqlTableNames` but stops
      `FindTable` under the `csvw_functions` key with `Missing`. */
  lemma KeysDiffer(name: string, schema: TableSchema)
    ensures var t := Table(map[ExtraSqlTableNameKey := name], schema, None);
            && FindTable([t], CoreSqlTableNameKey, name) == Err(Missing(0))
            && FindTable([t], ExtraSqlTableNameKey, name) == Ok(t)
            && SqlTableNames([t], ExtraSqlTableNameKey) == [name]
  {
    var t := Table(map[ExtraSqlTableNameKey := name], schema, None);
    assert CoreSqlTableNameKey != ExtraSqlTableNameKey by {
      assert CoreSqlTableNameKey[36] != ExtraSqlTableNameKey[36];
    }
    assert [t][..0] == [];
  }
}

=== FILE: schema.dfy ===
/** The statements `_create_table_from_csvw` and `add_index` build: the
    `CREATE TABLE` statement derived from a table schema, one `CREATE INDEX`
    per flagged column, and the ad-hoc index of `add_index`. Executing them
    against the database is not part of this model. */
module Schema {
  import opened Wrappers
  import opened Text
  import opened Iterators
  import WhereClause

  /** A column descriptor: `name`, `datatype.base`, and the `sqlsetindex`
      extension flag (an absent flag reads as false). */
  datatype Column = Column(name: string, base: string, setIndex: bool)

  /** `primaryKey`: a single column name or a list of them. */
  datatype PrimaryKey = KeyName(name: string) | KeyList(names: seq<string>)

  /** `tableSchema`: the columns in declaration order and the optional key. */
  datatype TableSchema = TableSchema(columns: seq<Column>, primaryKey: Option<PrimaryKey>)

  /** `datatype_map.get(base, 'TEXT')` with the map `integer -> INTEGER`,
      `decimal -> REAL`. */
  function SqlType(base: string): (r: string)
    ensures r == "INTEGER" <==> base == "integer"
    ensures r == "REAL" <==> base == "decimal"
    ensures r == "TEXT" <==> base != "integer" && base != "decimal"
  {
    if base == "integer" then "INTEGER"
    else if base == "decimal" then "REAL"
    else "TEXT"
  }

  function ColumnDefinition(c: Column): string
  {
    Quote(c.name) + " " + SqlType(c.base)
  }

  function ColumnDefinitions(cols: seq<Column>): (r: seq<string>)
    ensures |r| == |cols|
    ensures forall i :: 0 <= i < |cols| ==> r[i] == ColumnDefinition(cols[i])
  {
    if |cols| == 0 then [] else [ColumnDefinition(cols[0])] + ColumnDefinitions(cols[1..])
  }

  /** A string key is read as a one-element list. */
  function KeyNames(pk: PrimaryKey): seq<string>
  {
    match pk
    case KeyName(n) => [n]
    case KeyList(ns) => ns
  }

  function QuoteAll(names: seq<string>): (r: seq<string>)
    ensures |r| == |names|
    ensures forall i :: 0 <= i < |names| ==> r[i] == Quote(names[i])
  {
    if |names| == 0 then [] else [Quote(names[0])] + QuoteAll(names[1..])
  }

  /** The key clause: every name quoted and followed by `, `, the last
      separator trimmed, then `) `. */
  function PrimaryKeyClause(pk: PrimaryKey): (r: string)
    ensures |KeyNames(pk)| >= 1 ==>
      r == ", PRIMARY KEY (" + Join(QuoteAll(KeyNames(pk)), ", ") + ") "
    ensures |KeyNames(pk)| == 0 ==> r == ", PRIMARY KEY) "
  {
    var names := QuoteAll(KeyNames(pk));
    var clause := DropLastTwo(", PRIMARY KEY (" + Terminated(names, ", ")) + ") ";
    if |names| >= 1 then TrimmedTerminatedIsJoin(", PRIMARY KEY (", names, ", "); clause
    else clause
  }

  function KeyPart(schema: TableSchema): string
  {
    match schema.primaryKey
    case None => ""
    case Some(pk) => PrimaryKeyClause(pk)
  }

  /** The `CREATE TABLE` statement: every column definition followed by `, `,
      the last two characters trimmed, the key clause, then `);`. With no
      columns at all the trim removes the ` (` after the table name. */
  function CreateTable(table: string, schema: TableSchema): (r: string)
    ensures |schema.columns| >= 1 ==>
      r == "CREATE TABLE " + Quote(table) + " ("
           + Join(ColumnDefinitions(schema.columns), ", ") + KeyPart(schema) + ");"
    ensures |schema.columns| == 0 ==>
      r == "CREATE TABLE " + Quote(table) + KeyPart(schema) + ");"
  {
    var prefix := "CREATE TABLE " + Quote(table);
    var defs := ColumnDefinitions(schema.columns);
    var columns := DropLastTwo(prefix + " (" + Terminated(defs, ", "));
    if |defs| >= 1 then
      TrimmedTerminatedIsJoin(prefix + " (", defs, ", ");
      columns + KeyPart(schema) + ");"
    else
      TrimmedNoColumns(prefix, defs);
      columns + KeyPart(schema) + ");"
  }

  /** With no column definitions the trim eats the opening ` (`. */
  lemma TrimmedNoColumns(prefix: string, defs: seq<string>)
    requires |defs| == 0
    ensures DropLastTwo(prefix + " (" + Terminated(defs, ", ")) == prefix
  {
    assert prefix + " (" + Terminated(defs, ", ") == prefix + " (";
    assert (prefix + " (")[..|prefix|] == prefix;
  }

  // ---------------------------------------------------------------------
  // Indexes from the schema.

  function IndexName(table: string, column: string): string
  {
    table + "_" + column
  }

  function IndexStatement(table: string, column: string): string
  {
    "CREATE INDEX " + Quote(IndexName(table, column)) + " ON " + Quote(table) + "(" + Quote(column) + ")"
  }

  /** The names of the columns flagged `sqlsetindex`, in column order. */
  function IndexedColumns(cols: seq<Column>): seq<string>
  {
    if |cols| == 0 then []
    else
      var last := cols[|cols| - 1];
      IndexedColumns(cols[..|cols| - 1]) + (if last.setIndex then [last.name] else [])
  }

  /** The loop over the columns that issues one `CREATE INDEX` per flagged
      column, in column order, and none for the others. */
  method SchemaIndexes(table: string, cols: seq<Column>) returns (r: seq<string>)
    ensures |r| == |IndexedColumns(cols)|
    ensures forall k :: 0 <= k < |r| ==> r[k] == IndexStatement(table, IndexedColumns(cols)[k])
  {
    r := [];
    var i := 0;
    while i < |cols|
      invariant 0 <= i <= |cols|
      invariant |r| == |IndexedColumns(cols[..i])|
      invariant forall k :: 0 <= k < |r| ==> r[k] == IndexStatement(table, IndexedColumns(cols[..i])[k])
    {
      assert cols[..i + 1][..i] == cols[..i];
      if cols[i].setIndex {
        r := r + [IndexStatement(table, cols[i].name)];
      }
      i := i + 1;
    }
    assert cols[..|cols|] == cols;
  }

  /** A name is among the indexed columns exactly when some column of that
      name is flagged. */
  lemma {:induction false} IndexedColumnsIff(cols: seq<Column>, name: string)
    ensures name in IndexedColumns(cols) <==>
      exists i :: 0 <= i < |cols| && cols[i].name == name && cols[i].setIndex
  {
    if |cols| > 0 {
      var init := cols[..|cols| - 1];
      IndexedColumnsIff(init, name);
      if exists i :: 0 <= i < |init| && init[i].name == name && init[i].setIndex {
        var i :| 0 <= i < |init| && init[i].name == name && init[i].setIndex;
        assert cols[i] == init[i];
      }
      if exists i :: 0 <= i < |cols| && cols[i].name == name && cols[i].setIndex {
        var i :| 0 <= i < |cols| && cols[i].name == name && cols[i].setIndex;
        if i < |init| {
          assert init[i] == cols[i];
        }
      }
    }
  }

  /** Index names are only the table and column names glued with `_`, so two
      tables can ask for the same index name. */
  lemma SchemaIndexNamesCollide()
    ensures IndexName("a_b", "c") == IndexName("a", "b_c")
  {
  }

  // ---------------------------------------------------------------------
  // `add_index`.

  /** `'__'.join(fields)` raises at the first field that is not a string. */
  datatype FieldError = FieldNotString(item: nat)

  datatype IndexQuery = IndexQuery(name: string, sql: string)

  /** The fields as strings, or the position of the first that is not one. */
  function FieldNames(fields: seq<Literal>): (r: Result<seq<string>, FieldError>)
    ensures r.Ok? ==> |r.value| == |fields| && forall i :: 0 <= i < |fields| ==> fields[i] == Str(r.value[i])
    ensures r.Err? ==>
      && r.error.item < |fields|
      && !fields[r.error.item].Str?
      && forall j :: 0 <= j < r.error.item ==> fields[j].Str?
  {
    if |fields| == 0 then Ok([])
    else if !fields[0].Str? then Err(FieldNotString(0))
    else
      match FieldNames(fields[1..])
      case Ok(names) => Ok([fields[0].s] + names)
      case Err(FieldNotString(i)) => Err(FieldNotString(i + 1))
  }

  function AddIndexName(table: string, names: seq<string>, unique: bool): string
  {
    var base := "index__" + table + "__" + Join(names, "__");
    if unique then base + "__UNIQUE" else base
  }

  /** `'","'.join(fields)` wrapped in double quotes: `"a","b"`. */
  function ColumnList(names: seq<string>): string
  {
    Quote(Join(names, "\",\""))
  }

  /** The statement text, with its exact line breaks and indentation; the
      keyword slot holds `UNIQUE` or nothing. */
  function AddIndexSql(table: string, name: string, names: seq<string>, unique: bool): (r: string)
    ensures StartsWith(r, "\n        CREATE UNIQUE INDEX ") <==> unique
    ensures EndsWith(r, ColumnList(names) + ");\n    ")
  {
    var uniqueString := if unique then "UNIQUE" else "";
    var head := "\n        CREATE " + uniqueString + " INDEX " + Quote(name) + " \n        ON "
                + Quote(table) + "(";
    var tail := ColumnList(names) + ");\n    ";
    assert !unique ==> (head + tail)[16] == ' ';
    assert (head + tail)[|head + tail| - |tail|..] == tail;
    head + tail
  }

  /** `add_index(fields, table_name, ..., unique)`: the index name and the
      statement it executes. */
  function AddIndex(fields: Arg, table: string, unique: bool): (r: Result<IndexQuery, FieldError>)
    ensures r.Ok? <==> forall i :: 0 <= i < |ToIterator(fields)| ==> ToIterator(fields)[i].Str?
    ensures r.Ok? ==> (StartsWith(r.value.sql, "\n        CREATE UNIQUE INDEX ") <==> unique)
    ensures r.Ok? ==>
      r.value.name == "index__" + table + "__" + Join(FieldNames(ToIterator(fields)).value, "__")
                      + (if unique then "__UNIQUE" else "")
  {
    match FieldNames(ToIterator(fields))
    case Err(e) => Err(e)
    case Ok(names) =>
      var name := AddIndexName(table, names, unique);
      Ok(IndexQuery(name, AddIndexSql(table, name, names, unique)))
  }

  lemma {:induction false} ColumnListIsLiteralList(names: seq<string>)
    requires |names| >= 1
    ensures ColumnList(names) == Join(QuoteAll(names), ",")
  {
    if |names| > 1 {
      ColumnListIsLiteralList(names[1..]);
      assert QuoteAll(names)[1..] == QuoteAll(names[1..]);
      assert Join(names, "\",\"") == names[0] + "\",\"" + Join(names[1..], "\",\"");
    }
  }

  /** An index name taken by an earlier `add_index` call makes the statement
      fail, and that failure is swallowed: `['a', 'b']` and `['a__b']` get the
      same name although their column lists differ. */
  lemma AddIndexNamesCollide()
    ensures var two := AddIndex(Items([Str("a"), Str("b")]), "t", false);
            var one := AddIndex(Items([Str("a__b")]), "t", false);
            two.Ok? && one.Ok? && two.value.name == one.value.name
    ensures ColumnList(["a", "b"]) != ColumnList(["a__b"])
  {
    var two := FieldNames([Str("a"), Str("b")]);
    assert |two.value| == 2 && two.value[0] == "a" && two.value[1] == "b";
    assert two.value == ["a", "b"];
    var one := FieldNames([Str("a__b")]);
    assert |one.value| == 1 && one.value[0] == "a__b";
    assert one.value == ["a__b"];
    assert Join(["a", "b"], "__") == "a__b";
    assert ColumnList(["a", "b"])[2] == '"';
    assert ColumnList(["a__b"])[2] == '_';
  }

  /** A unique index on `x` and a plain one on `x__UNIQUE` share a name. */
  lemma AddIndexUniqueNameCollides()
    ensures var u := AddIndex(Scalar(Str("x")), "t", true);
            var p := AddIndex(Scalar(Str("x__UNIQUE")), "t", false);
            u.Ok? && p.Ok? && u.value.name == p.value.name
  {
    var u := FieldNames([Str("x")]);
    assert |u.value| == 1 && u.value[0] == "x";
    assert u.value == ["x"];
    var p := FieldNames([Str("x__UNIQUE")]);
    assert |p.value| == 1 && p.value[0] == "x__UNIQUE";
    assert p.value == ["x__UNIQUE"];
  }

  function StrLiterals(names: seq<string>): (r: seq<Literal>)
    ensures |r| == |names|
    ensures forall i :: 0 <= i < |names| ==> r[i] == Str(names[i])
  {
    if |names| == 0 then [] else [Str(names[0])] + StrLiterals(names[1..])
  }

  /** What an `add_index` statement declares. */
  datatype IndexDdl = IndexDdl(unique: bool, name: string, table: string, fields: seq<Literal>)

  const IndexHead := "\n        CREATE "
  const IndexOn := " \n        ON "
  const IndexEnd := ");\n    "

  /** The keyword slot: `UNIQUE INDEX ` or ` INDEX `. */
  function ParseIndexKeyword(s: string): Option<(bool, string)>
  {
    if StartsWith(s, "UNIQUE INDEX ") then Some((true, s[13..]))
    else if StartsWith(s, " INDEX ") then Some((false, s[7..]))
    else None
  }

  /** Reads `ON "<table>"(<columns>);` after the index name. */
  function ParseIndexTarget(s: string): Option<(string, seq<Literal>)>
  {
    if !StartsWith(s, IndexOn) then None
    else
      match ParseQuoted(s[|IndexOn|..])
      case None => None
      case Some((table, rest)) =>
        if !StartsWith(rest, "(") then None
        else
          match WhereClause.ParseLiteralList(rest[1..])
          case None => None
          case Some((fields, tail)) => if tail == IndexEnd then Some((table, fields)) else None
  }

  /** Reads an `add_index` statement back. */
  function ParseAddIndex(s: string): Option<IndexDdl>
  {
    if !StartsWith(s, IndexHead) then None
    else
      match ParseIndexKeyword(s[|IndexHead|..])
      case None => None
      case Some((unique, rest)) =>
        match ParseQuoted(rest)
        case None => None
        case Some((name, rest')) =>
          match ParseIndexTarget(rest')
          case None => None
          case Some((table, fields)) => Some(IndexDdl(unique, name, table, fields))
  }

  lemma IndexSqlShape(table: string, name: string, names: seq<string>, unique: bool)
    ensures var u := if unique then "UNIQUE" else "";
            AddIndexSql(table, name, names, unique)
            == IndexHead + (u + (" INDEX " + (Quote(name) + (IndexOn + (Quote(table) + ("(" + (ColumnList(names) + IndexEnd)))))))
  {
  }

  /** The column list of string fields reads back as those fields. */
  lemma ColumnListReadBack(fields: seq<Literal>, rest: string)
    requires |fields| >= 1 && StartsWith(rest, ")")
    requires forall i :: 0 <= i < |fields| ==> fields[i].Str? && NoQuote(fields[i].s)
    ensures FieldNames(fields).Ok?
    ensures WhereClause.ParseLiteralList(ColumnList(FieldNames(fields).value) + rest) == Some((fields, rest))
  {
    var names := FieldNames(fields).value;
    assert StrLiterals(names) == fields;
    ColumnListIsLiteralList(names);
    assert WhereClause.RenderLiterals(fields) == QuoteAll(names);
    WhereClause.LiteralListRoundTrip(fields, rest);
  }

  lemma IndexTargetStep(table: string, columns: string, fields: seq<Literal>)
    requires NoQuote(table) && WhereClause.ParseLiteralList(columns) == Some((fields, IndexEnd))
    ensures ParseIndexTarget(IndexOn + (Quote(table) + ("(" + columns))) == Some((table, fields))
  {
    PrefixThen(IndexOn, Quote(table) + ("(" + columns));
    QuotedRoundTrip(table, "(" + columns);
    PrefixThen("(", columns);
  }

  /** Reading the statement of a successful `add_index` call gives back the
      unique flag, the index name, the table and the fields, when no name
      holds a double quote and there is at least one field. */
  lemma AddIndexRoundTrip(fields: Arg, table: string, unique: bool)
    requires AddIndex(fields, table, unique).Ok? && |ToIterator(fields)| >= 1
    requires NoQuote(table) && forall i :: 0 <= i < |ToIterator(fields)| ==> NoQuote(ToIterator(fields)[i].s)
    ensures var q := AddIndex(fields, table, unique).value;
            ParseAddIndex(q.sql) == Some(IndexDdl(unique, q.name, table, ToIterator(fields)))
  {
    var lits := ToIterator(fields);
    var names := FieldNames(lits).value;
    NamesHaveNoQuote(lits, names);
    IndexNameHasNoQuote(table, names, unique);
    assert StartsWith(IndexEnd, ")");
    ColumnListReadBack(lits, IndexEnd);
    IndexSqlRoundTrip(table, AddIndexName(table, names, unique), names, lits, unique);
  }

  lemma IndexNameHasNoQuote(table: string, names: seq<string>, unique: bool)
    requires NoQuote(table) && forall i :: 0 <= i < |names| ==> NoQuote(names[i])
    ensures NoQuote(AddIndexName(table, names, unique))
  {
    NoQuoteJoin(names, "__");
    NoQuoteConcat("index__", table);
    NoQuoteConcat("index__" + table, "__");
    NoQuoteConcat("index__" + table + "__", Join(names, "__"));
    if unique {
      NoQuoteConcat("index__" + table + "__" + Join(names, "__"), "__UNIQUE");
    }
  }

  lemma IndexSqlRoundTrip(table: string, name: string, names: seq<string>, lits: seq<Literal>, unique: bool)
    requires NoQuote(table) && NoQuote(name)
    requires WhereClause.ParseLiteralList(ColumnList(names) + IndexEnd) == Some((lits, IndexEnd))
    ensures ParseAddIndex(AddIndexSql(table, name, names, unique)) == Some(IndexDdl(unique, name, table, lits))
  {
    var target := IndexOn + (Quote(table) + ("(" + (ColumnList(names) + IndexEnd)));
    var u := if unique then "UNIQUE" else "";
    var sql := AddIndexSql(table, name, names, unique);
    IndexSqlShape(table, name, names, unique);
    PrefixThen(IndexHead, u + (" INDEX " + (Quote(name) + target)));
    KeywordRoundTrip(unique, Quote(name) + target);
    QuotedRoundTrip(name, target);
    IndexTargetStep(table, ColumnList(names) + IndexEnd, lits);
    ParseAddIndexSteps(sql, unique, name, target, table, lits);
  }

  /** How `ParseAddIndex` proceeds when each of its readers succeeds. */
  lemma ParseAddIndexSteps(s: string, unique: bool, name: string, target: string, table: string, lits: seq<Literal>)
    requires StartsWith(s, IndexHead)
    requires ParseIndexKeyword(s[|IndexHead|..]) == Some((unique, Quote(name) + target))
    requires ParseQuoted(Quote(name) + target) == Some((name, target))
    requires ParseIndexTarget(target) == Some((table, lits))
    ensures ParseAddIndex(s) == Some(IndexDdl(unique, name, table, lits))
  {
  }

  lemma KeywordRoundTrip(unique: bool, rest: string)
    ensures ParseIndexKeyword((if unique then "UNIQUE" else "") + (" INDEX " + rest)) == Some((unique, rest))
  {
    var keyword := " INDEX " + rest;
    if unique {
      assert "UNIQUE" + keyword == "UNIQUE INDEX " + rest;
      PrefixThen("UNIQUE INDEX ", rest);
    } else {
      assert "" + keyword == keyword;
      DiffersAt(keyword, "UNIQUE INDEX ", 0);
      PrefixThen(" INDEX ", rest);
    }
  }

  /** The names `FieldNames` returns are the strings of the fields. */
  lemma NamesHaveNoQuote(lits: seq<Literal>, names: seq<string>)
    requires FieldNames(lits) == Ok(names)
    requires forall i :: 0 <= i < |lits| ==> NoQuote(lits[i].s)
    ensures forall i :: 0 <= i < |names| ==> NoQuote(names[i])
  {
    forall i | 0 <= i < |names| ensures NoQuote(names[i]) {
      assert lits[i] == Str(names[i]);
    }
  }

  // ---------------------------------------------------------------------
  // Reading a `CREATE TABLE` statement back.

  datatype ColumnDecl = ColumnDecl(name: string, sqlType: string)

  /** What a `CREATE TABLE` statement declares: the table, its columns in
      order with their SQL types, and the key columns if any. */
  datatype TableDdl = TableDdl(table: string, columns: seq<ColumnDecl>, key: Option<seq<string>>)

  function Declarations(cols: seq<Column>): (r: seq<ColumnDecl>)
    ensures |r| == |cols|
    ensures forall i :: 0 <= i < |cols| ==> r[i] == ColumnDecl(cols[i].name, SqlType(cols[i].base))
  {
    if |cols| == 0 then [] else [ColumnDecl(cols[0].name, SqlType(cols[0].base))] + Declarations(cols[1..])
  }

  function ParseSqlType(s: string): Option<(string, string)>
  {
    if StartsWith(s, "INTEGER") then Some(("INTEGER", s[7..]))
    else if StartsWith(s, "REAL") then Some(("REAL", s[4..]))
    else if StartsWith(s, "TEXT") then Some(("TEXT", s[4..]))
    else None
  }

  /** Reads `"name" TYPE` items separated by `, ` up to the key clause or the
      end of the statement. */
  function ParseColumnDecls(s: string): (r: Option<(seq<ColumnDecl>, string)>)
    decreases |s|
  {
    match ParseQuoted(s)
    case None => None
    case Some((name, rest)) =>
      if !StartsWith(rest, " ") then None
      else
        match ParseSqlType(rest[1..])
        case None => None
        case Some((ty, rest')) =>
          if StartsWith(rest', ", \"") then
            match ParseColumnDecls(rest'[2..])
            case None => None
            case Some((ds, rest'')) => Some(([ColumnDecl(name, ty)] + ds, rest''))
          else Some(([ColumnDecl(name, ty)], rest'))
  }

  /** Reads `"k1", "k2"` up to the closing parenthesis. */
  function ParseKeyNames(s: string): (r: Option<(seq<string>, string)>)
    decreases |s|
  {
    match ParseQuoted(s)
    case None => None
    case Some((name, rest)) =>
      if StartsWith(rest, ", ") then
        match ParseKeyNames(rest[2..])
        case None => None
        case Some((ns, rest')) => Some(([name] + ns, rest'))
      else Some(([name], rest))
  }

  function ParseCreateTable(s: string): Option<TableDdl>
  {
    if !StartsWith(s, "CREATE TABLE ") then None
    else
      match ParseQuoted(s[13..])
      case None => None
      case Some((table, rest)) =>
        if !StartsWith(rest, " (") then None else ParseTableBody(table, rest[2..])
  }

  /** Reads what follows `CREATE TABLE "table" (`. */
  function ParseTableBody(table: string, s: string): Option<TableDdl>
  {
    match ParseColumnDecls(s)
    case None => None
    case Some((cols, rest)) =>
      if rest == ");" then Some(TableDdl(table, cols, None))
      else if StartsWith(rest, ", PRIMARY KEY (") then
        match ParseKeyNames(rest[15..])
        case None => None
        case Some((keys, rest')) =>
          if rest' == ") );" then Some(TableDdl(table, cols, Some(keys))) else None
      else None
  }

  lemma SqlTypeRoundTrip(base: string, rest: string)
    ensures ParseSqlType(SqlType(base) + rest) == Some((SqlType(base), rest))
  {
    PrefixThen(SqlType(base), rest);
  }

  /** What may follow the last column definition. */
  predicate EndsColumns(rest: string)
  {
    rest == ");" || StartsWith(rest, ", PRIMARY KEY (")
  }

  /** One column definition reads back as its declaration, whatever follows. */
  lemma ColumnDeclHead(c: Column, after: string)
    requires NoQuote(c.name)
    ensures ParseQuoted(ColumnDefinition(c) + after) == Some((c.name, " " + (SqlType(c.base) + after)))
    ensures ParseSqlType((" " + (SqlType(c.base) + after))[1..]) == Some((SqlType(c.base), after))
    ensures StartsWith(" " + (SqlType(c.base) + after), " ")
  {
    assert ColumnDefinition(c) + after == Quote(c.name) + (" " + (SqlType(c.base) + after));
    QuotedRoundTrip(c.name, " " + (SqlType(c.base) + after));
    PrefixThen(" ", SqlType(c.base) + after);
    SqlTypeRoundTrip(c.base, after);
  }

  /** How the reader continues after one column definition. */
  lemma ColumnDeclStep(c: Column, after: string)
    requires NoQuote(c.name)
    ensures var decl := ColumnDecl(c.name, SqlType(c.base));
      ParseColumnDecls(ColumnDefinition(c) + after) ==
        if StartsWith(after, ", \"") then
          match ParseColumnDecls(after[2..])
          case None => None
          case Some((ds, rest)) => Some(([decl] + ds, rest))
        else Some(([decl], after))
  {
    ColumnDeclHead(c, after);
  }

  lemma LastColumnDecl(c: Column, rest: string)
    requires NoQuote(c.name) && EndsColumns(rest)
    ensures ParseColumnDecls(ColumnDefinition(c) + rest) == Some(([ColumnDecl(c.name, SqlType(c.base))], rest))
  {
    ColumnDeclStep(c, rest);
    if rest == ");" {
      DiffersAt(rest, ", \"", 0);
    } else {
      assert rest[..15] == ", PRIMARY KEY (";
      assert rest[2] == 'P';
      DiffersAt(rest, ", \"", 2);
    }
  }

  lemma NextColumnDecl(c: Column, more: string, ds: seq<ColumnDecl>, rest: string)
    requires NoQuote(c.name) && StartsWith(more, "\"")
    requires ParseColumnDecls(more) == Some((ds, rest))
    ensures ParseColumnDecls(ColumnDefinition(c) + (", " + more)) == Some(([ColumnDecl(c.name, SqlType(c.base))] + ds, rest))
  {
    var after := ", " + more;
    ColumnDeclStep(c, after);
    PrefixThen(", ", more);
    assert after[..3] == ", \"";
  }

  lemma DefinitionsStartWithQuote(cols: seq<Column>, rest: string)
    requires |cols| >= 1
    ensures StartsWith(Join(ColumnDefinitions(cols), ", ") + rest, "\"")
  {
    var defs := ColumnDefinitions(cols);
    JoinStartsWithFirst(defs, ", ");
    var first := defs[0];
    assert first[0] == '"';
    var x := Join(defs, ", ") + rest;
    assert x[0] == Join(defs, ", ")[..|first|][0];
    assert x[..1] == [x[0]];
  }

  lemma SingleColumnDecls(cols: seq<Column>, rest: string)
    requires |cols| == 1 && NoQuote(cols[0].name) && EndsColumns(rest)
    ensures ParseColumnDecls(Join(ColumnDefinitions(cols), ", ") + rest) == Some((Declarations(cols), rest))
  {
    var c := cols[0];
    assert Join(ColumnDefinitions(cols), ", ") + rest == ColumnDefinition(c) + rest;
    LastColumnDecl(c, rest);
    assert Declarations(cols) == [ColumnDecl(c.name, SqlType(c.base))];
  }

  lemma ConsColumnDecls(cols: seq<Column>, rest: string)
    requires |cols| >= 2 && NoQuote(cols[0].name)
    requires ParseColumnDecls(Join(ColumnDefinitions(cols[1..]), ", ") + rest) == Some((Declarations(cols[1..]), rest))
    ensures ParseColumnDecls(Join(ColumnDefinitions(cols), ", ") + rest) == Some((Declarations(cols), rest))
  {
    var c := cols[0];
    var defs := ColumnDefinitions(cols);
    var tail := ColumnDefinitions(cols[1..]);
    assert defs == [ColumnDefinition(c)] + tail;
    assert defs[1..] == tail;
    var more := Join(tail, ", ") + rest;
    assert Join(defs, ", ") == ColumnDefinition(c) + ", " + Join(tail, ", ");
    Regroup(ColumnDefinition(c), ", ", Join(tail, ", "), rest);
    DefinitionsStartWithQuote(cols[1..], rest);
    NextColumnDecl(c, more, Declarations(cols[1..]), rest);
    assert Declarations(cols) == [ColumnDecl(c.name, SqlType(c.base))] + Declarations(cols[1..]);
  }

  lemma {:induction false} ColumnDeclsRoundTrip(cols: seq<Column>, rest: string)
    requires |cols| >= 1 && forall i :: 0 <= i < |cols| ==> NoQuote(cols[i].name)
    requires EndsColumns(rest)
    ensures ParseColumnDecls(Join(ColumnDefinitions(cols), ", ") + rest) == Some((Declarations(cols), rest))
  {
    if |cols| == 1 {
      SingleColumnDecls(cols, rest);
    } else {
      ColumnDeclsRoundTrip(cols[1..], rest);
      ConsColumnDecls(cols, rest);
    }
  }

  lemma {:induction false} KeyNamesRoundTrip(names: seq<string>, rest: string)
    requires |names| >= 1 && forall i :: 0 <= i < |names| ==> NoQuote(names[i])
    requires StartsWith(rest, ")")
    ensures ParseKeyNames(Join(QuoteAll(names), ", ") + rest) == Some((names, rest))
  {
    var quoted := QuoteAll(names);
    if |names| == 1 {
      assert Join(quoted, ", ") + rest == Quote(names[0]) + rest;
      QuotedRoundTrip(names[0], rest);
      assert rest[0] == ')';
      assert !StartsWith(rest, ", ");
      assert [names[0]] == names;
    } else {
      var more := Join(QuoteAll(names[1..]), ", ") + rest;
      assert quoted[1..] == QuoteAll(names[1..]);
      assert Join(quoted, ", ") + rest == Quote(names[0]) + (", " + more);
      QuotedRoundTrip(names[0], ", " + more);
      PrefixThen(", ", more);
      KeyNamesRoundTrip(names[1..], rest);
      assert [names[0]] + names[1..] == names;
    }
  }

  /** The key names of a schema, when it declares a key. */
  function DeclaredKey(schema: TableSchema): Option<seq<string>>
  {
    match schema.primaryKey
    case None => None
    case Some(pk) => Some(KeyNames(pk))
  }

  /** No identifier holds a double quote, and a declared key names at least
      one column. */
  predicate WellFormedSchema(table: string, schema: TableSchema)
  {
    && NoQuote(table)
    && (forall i :: 0 <= i < |schema.columns| ==> NoQuote(schema.columns[i].name))
    && (schema.primaryKey.Some? ==>
          var names := KeyNames(schema.primaryKey.value);
          |names| >= 1 && forall i :: 0 <= i < |names| ==> NoQuote(names[i]))
  }

  /** The column list of a keyless table, followed by `);`, reads back as
      its declarations and no key. */
  lemma TableBodyWithoutKey(table: string, cols: seq<Column>)
    requires |cols| >= 1 && forall i :: 0 <= i < |cols| ==> NoQuote(cols[i].name)
    ensures ParseTableBody(table, Join(ColumnDefinitions(cols), ", ") + ");")
      == Some(TableDdl(table, Declarations(cols), None))
  {
    ColumnDeclsRoundTrip(cols, ");");
  }

  /** The column list followed by the key clause reads back as the
      declarations and the key names. */
  lemma TableBodyWithKey(table: string, cols: seq<Column>, names: seq<string>)
    requires |cols| >= 1 && forall i :: 0 <= i < |cols| ==> NoQuote(cols[i].name)
    requires |names| >= 1 && forall i :: 0 <= i < |names| ==> NoQuote(names[i])
    ensures ParseTableBody(table, Join(ColumnDefinitions(cols), ", ")
                                  + (", PRIMARY KEY (" + Join(QuoteAll(names), ", ") + ") " + ");"))
      == Some(TableDdl(table, Declarations(cols), Some(names)))
  {
    var keys := Join(QuoteAll(names), ", ");
    var tail := ", PRIMARY KEY (" + keys + ") " + ");";
    assert tail == ", PRIMARY KEY (" + (keys + ") );");
    PrefixThen(", PRIMARY KEY (", keys + ") );");
    assert tail != ");" by { assert |tail| > 2; }
    ColumnDeclsRoundTrip(cols, tail);
    KeyNamesRoundTrip(names, ") );");
    assert tail[15..] == keys + ") );";
  }

  lemma TableBodyRoundTrip(table: string, schema: TableSchema)
    requires |schema.columns| >= 1 && WellFormedSchema(table, schema)
    ensures ParseTableBody(table, Join(ColumnDefinitions(schema.columns), ", ") + KeyPart(schema) + ");")
      == Some(TableDdl(table, Declarations(schema.columns), DeclaredKey(schema)))
  {
    var body := Join(ColumnDefinitions(schema.columns), ", ");
    match schema.primaryKey
    case None =>
      assert body + KeyPart(schema) + ");" == body + ");";
      TableBodyWithoutKey(table, schema.columns);
    case Some(pk) =>
      var names := KeyNames(pk);
      assert KeyPart(schema) == ", PRIMARY KEY (" + Join(QuoteAll(names), ", ") + ") ";
      assert body + KeyPart(schema) + ");" == body + (KeyPart(schema) + ");");
      TableBodyWithKey(table, schema.columns, names);
  }

  lemma HeaderRoundTrip(table: string, after: string)
    requires NoQuote(table)
    ensures ParseCreateTable("CREATE TABLE " + Quote(table) + " (" + after) == ParseTableBody(table, after)
  {
    var s := "CREATE TABLE " + Quote(table) + " (" + after;
    assert s == "CREATE TABLE " + (Quote(table) + (" (" + after));
    PrefixThen("CREATE TABLE ", Quote(table) + (" (" + after));
    QuotedRoundTrip(table, " (" + after);
    PrefixThen(" (", after);
  }

  /** Regrouping the statement into its header and the text after ` (`. */
  lemma HeadThenBody(head: string, columns: string, key: string, close: string)
    ensures head + columns + key + close == head + (columns + key + close)
  {
  }

  /** Round trip: the statement declares exactly the schema's table, its
      columns in declaration order with their mapped types, and its key
      columns in the given order (a single key name as a one-element list). */
  lemma CreateTableRoundTrip(table: string, schema: TableSchema)
    requires |schema.columns| >= 1 && WellFormedSchema(table, schema)
    ensures ParseCreateTable(CreateTable(table, schema))
      == Some(TableDdl(table, Declarations(schema.columns), DeclaredKey(schema)))
  {
    var columns := Join(ColumnDefinitions(schema.columns), ", ");
    var after := columns + KeyPart(schema) + ");";
    HeadThenBody("CREATE TABLE " + Quote(table) + " (", columns, KeyPart(schema), ");");
    HeaderRoundTrip(table, after);
    TableBodyRoundTrip(table, schema);
  }
}

=== FILE: text.dfy ===
/** String building and scanning shared by the SQL generators: Python's
    `str.join`, the `s[:-2]` trim, decimal rendering of integers and the
    scanners that read generated text back. */
module Text {
  import opened Wrappers

  /** Python's `sep.join(parts)`. */
  function Join(parts: seq<string>, sep: string): string
  {
    if |parts| == 0 then ""
    else if |parts| == 1 then parts[0]
    else parts[0] + sep + Join(parts[1..], sep)
  }

  /** Every part followed by `sep`: what a loop `q += part; q += sep` appends. */
  function Terminated(parts: seq<string>, sep: string): string
  {
    if |parts| == 0 then "" else parts[0] + sep + Terminated(parts[1..], sep)
  }

  /** Python's `s[:-2]`: the last two characters removed, or nothing left
      when there are fewer than two. */
  function DropLastTwo(s: string): (r: string)
    ensures |s| >= 2 ==> |r| == |s| - 2 && s == r + s[|s| - 2..]
    ensures |s| < 2 ==> r == ""
  {
    if |s| >= 2 then s[..|s| - 2] else ""
  }

  lemma {:induction false} TerminatedIsJoinThenSep(parts: seq<string>, sep: string)
    requires |parts| >= 1
    ensures Terminated(parts, sep) == Join(parts, sep) + sep
  {
    if |parts| > 1 {
      TerminatedIsJoinThenSep(parts[1..], sep);
    }
  }

  /** Appending `part, sep` for every part and then trimming two characters
      is the same as joining, when the separator has two characters. */
  lemma TrimmedTerminatedIsJoin(prefix: string, parts: seq<string>, sep: string)
    requires |parts| >= 1 && |sep| == 2
    ensures DropLastTwo(prefix + Terminated(parts, sep)) == prefix + Join(parts, sep)
  {
    var joined := Join(parts, sep);
    TerminatedIsJoinThenSep(parts, sep);
    Associative(prefix, joined, sep);
    DropAppendedPair(prefix + joined, sep);
  }

  /** Trimming two characters undoes appending two. */
  lemma DropAppendedPair(s: string, pair: string)
    requires |pair| == 2
    ensures DropLastTwo(s + pair) == s
  {
    assert (s + pair)[..|s|] == s;
  }

  lemma JoinStartsWithFirst(parts: seq<string>, sep: string)
    requires |parts| >= 1
    ensures |parts[0]| <= |Join(parts, sep)|
    ensures Join(parts, sep)[..|parts[0]|] == parts[0]
  {
    if |parts| > 1 {
      assert Join(parts, sep) == parts[0] + (sep + Join(parts[1..], sep));
    }
  }

  predicate StartsWith(s: string, p: string)
  {
    |p| <= |s| && s[..|p|] == p
  }

  lemma HeadTail<T>(s: seq<T>)
    requires |s| >= 1
    ensures [s[0]] + s[1..] == s
  {
  }

  /** One differing character rules a prefix out. */
  lemma DiffersAt(s: string, p: string, i: nat)
    requires i < |p| && i < |s| && s[i] != p[i]
    ensures !StartsWith(s, p)
  {
    if |p| <= |s| {
      assert s[..|p|][i] == s[i];
    }
  }

  /** A text read from the front of `p + r` leaves `r`. */
  lemma PrefixThen(p: string, r: string)
    ensures StartsWith(p + r, p) && (p + r)[|p|..] == r
  {
    assert (p + r)[..|p|] == p;
  }

  /** Regrouping `a + sep + b + rest` around its first part. */
  lemma Regroup(a: string, sep: string, b: string, rest: string)
    ensures a + sep + b + rest == a + (sep + (b + rest))
  {
  }

  predicate EndsWith(s: string, p: string)
  {
    |p| <= |s| && s[|s| - |p|..] == p
  }

  // ---------------------------------------------------------------------
  // Decimal integers, as Python's `f'{i}'` renders an `int`.

  predicate IsDigit(c: char)
  {
    '0' <= c <= '9'
  }

  predicate AllDigits(s: string)
  {
    forall i :: 0 <= i < |s| ==> IsDigit(s[i])
  }

  function DigitChar(d: nat): (c: char)
    requires d < 10
    ensures IsDigit(c)
  {
    "0123456789"[d]
  }

  function DigitValue(c: char): (d: nat)
    requires IsDigit(c)
    ensures d < 10
  {
    (c as int) - ('0' as int)
  }

  lemma DigitValueOfDigitChar(d: nat)
    requires d < 10
    ensures DigitValue(DigitChar(d)) == d
  {
  }

  /** Decimal digits of `n`, most significant first, without leading zeros. */
  function NatToString(n: nat): (r: string)
    ensures |r| >= 1 && AllDigits(r)
    ensures |r| > 1 ==> r[0] != '0'
    decreases n
  {
    if n < 10 then [DigitChar(n)] else NatToString(n / 10) + [DigitChar(n % 10)]
  }

  /** Python's `str(i)` for an integer: a minus sign for negatives. Any
      number of digits is rendered. */
  function IntToString(i: int): (r: string)
    ensures |r| >= 1 && (r[0] == '-' <==> i < 0)
    ensures i >= 0 ==> AllDigits(r)
  {
    if i < 0 then "-" + NatToString(-i) else NatToString(i)
  }

  /** The value of a string of decimal digits. */
  function DigitsValue(ds: string): nat
    requires AllDigits(ds)
  {
    if |ds| == 0 then 0 else DigitsValue(ds[..|ds| - 1]) * 10 + DigitValue(ds[|ds| - 1])
  }

  lemma {:induction false} NatToStringRoundTrip(n: nat)
    ensures DigitsValue(NatToString(n)) == n
    decreases n
  {
    var s := NatToString(n);
    if n < 10 {
      DigitValueOfDigitChar(n);
    } else {
      NatToStringRoundTrip(n / 10);
      assert s[..|s| - 1] == NatToString(n / 10);
      DigitValueOfDigitChar(n % 10);
    }
  }

  /** The longest prefix of decimal digits, and what follows it. */
  function SplitDigits(s: string): (r: (string, string))
    ensures r.0 + r.1 == s
    ensures AllDigits(r.0)
    ensures r.1 == [] || !IsDigit(r.1[0])
  {
    if |s| == 0 || !IsDigit(s[0]) then ("", s)
    else
      var (ds, rest) := SplitDigits(s[1..]);
      assert [s[0]] + (ds + rest) == s;
      assert forall i :: 1 <= i <= |ds| ==> ([s[0]] + ds)[i] == ds[i - 1];
      ([s[0]] + ds, rest)
  }

  predicate StopsNumber(rest: string)
  {
    rest == [] || !IsDigit(rest[0])
  }

  lemma {:induction false} SplitDigitsOfDigits(ds: string, rest: string)
    requires AllDigits(ds) && StopsNumber(rest)
    ensures SplitDigits(ds + rest) == (ds, rest)
  {
    if |ds| > 0 {
      assert (ds + rest)[0] == ds[0];
      assert (ds + rest)[1..] == ds[1..] + rest;
      SplitDigitsOfDigits(ds[1..], rest);
      assert [ds[0]] + ds[1..] == ds;
    } else {
      assert ds + rest == rest;
    }
  }

  /** A number read from the front of a text, and the text after it. */
  datatype Scanned = Scanned(value: int, rest: string)

  /** Reads an optionally negative decimal integer from the front of `s`. */
  function ParseInt(s: string): (r: Option<Scanned>)
    ensures r.Some? ==> |r.value.rest| < |s|
  {
    var negative := |s| > 0 && s[0] == '-';
    var (ds, rest) := SplitDigits(if negative then s[1..] else s);
    if |ds| == 0 then None
    else
      var v: int := DigitsValue(ds);
      Some(Scanned(if negative then -v else v, rest))
  }

  /** Reading back the digits of `n`, then whatever follows them. */
  lemma ParseUnsigned(ds: string, n: int, rest: string)
    requires |ds| >= 1 && AllDigits(ds) && StopsNumber(rest) && n == DigitsValue(ds)
    ensures ParseInt(ds + rest) == Some(Scanned(n, rest))
  {
    assert (ds + rest)[0] == ds[0];
    SplitDigitsOfDigits(ds, rest);
  }

  /** Reading back a minus sign and the digits of `n`. */
  lemma ParseNegative(ds: string, n: int, rest: string)
    requires |ds| >= 1 && AllDigits(ds) && StopsNumber(rest) && n == DigitsValue(ds)
    ensures var r := ParseInt("-" + (ds + rest)); r.Some? && r.value.value == -n && r.value.rest == rest
  {
    var s := "-" + (ds + rest);
    assert s[0] == '-';
    assert SplitDigits(s[1..]) == (ds, rest) by {
      assert s[1..] == ds + rest;
      SplitDigitsOfDigits(ds, rest);
    }
  }

  /** Python's rendering of an integer reads back as that integer, provided
      no further digit follows it. */
  lemma IntToStringRoundTrip(i: int, rest: string)
    requires StopsNumber(rest)
    ensures ParseInt(IntToString(i) + rest) == Some(Scanned(i, rest))
  {
    if i < 0 {
      NegativeRoundTrip(i, rest);
    } else {
      var ds := NatToString(i);
      assert IntToString(i) == ds;
      NatToStringRoundTrip(i);
      ParseUnsigned(ds, i, rest);
    }
  }

  lemma NegativeRoundTrip(i: int, rest: string)
    requires i < 0 && StopsNumber(rest)
    ensures ParseInt(IntToString(i) + rest) == Some(Scanned(i, rest))
  {
    var m: nat := -i;
    var ds := NatToString(m);
    NatToStringRoundTrip(m);
    ReadNegative(i, IntToString(i), ds, rest);
  }

  /** A minus sign and the digits of `-i` read back as `i`. */
  lemma ReadNegative(i: int, s: string, ds: string, rest: string)
    requires s == "-" + ds && |ds| >= 1 && AllDigits(ds) && DigitsValue(ds) == -i && StopsNumber(rest)
    ensures ParseInt(s + rest) == Some(Scanned(i, rest))
  {
    ParseNegative(ds, -i, rest);
    Associative("-", ds, rest);
    var r := ParseInt("-" + (ds + rest));
    assert s + rest == "-" + (ds + rest);
    assert r.Some? && r.value == Scanned(i, rest);
  }

  lemma Associative(a: string, b: string, c: string)
    ensures a + b + c == a + (b + c)
  {
  }

  // ---------------------------------------------------------------------
  // Double-quoted text, the quoting the generators use for identifiers and
  // for string literals alike, without any escaping.

  function Quote(s: string): string
  {
    "\"" + s + "\""
  }

  predicate NoQuote(s: string)
  {
    forall i :: 0 <= i < |s| ==> s[i] != '"'
  }

  lemma NoQuoteConcat(a: string, b: string)
    requires NoQuote(a) && NoQuote(b)
    ensures NoQuote(a + b)
  {
    forall i | 0 <= i < |a + b| ensures (a + b)[i] != '"' {
      if i >= |a| {
        assert (a + b)[i] == b[i - |a|];
      }
    }
  }

  lemma {:induction false} NoQuoteJoin(parts: seq<string>, sep: string)
    requires NoQuote(sep) && forall i :: 0 <= i < |parts| ==> NoQuote(parts[i])
    ensures NoQuote(Join(parts, sep))
  {
    if |parts| > 1 {
      NoQuoteJoin(parts[1..], sep);
      NoQuoteConcat(parts[0], sep);
      NoQuoteConcat(parts[0] + sep, Join(parts[1..], sep));
    }
  }

  /** The text before the first double quote, and the rest from that quote on. */
  function SplitAtQuote(s: string): (r: (string, string))
    ensures r.0 + r.1 == s
    ensures NoQuote(r.0)
    ensures r.1 == [] || r.1[0] == '"'
  {
    if |s| == 0 || s[0] == '"' then ("", s)
    else
      var (t, rest) := SplitAtQuote(s[1..]);
      ([s[0]] + t, rest)
  }

  /** Reads `"text"` from the front of `s`. */
  function ParseQuoted(s: string): (r: Option<(string, string)>)
    ensures r.Some? ==> NoQuote(r.value.0) && s == Quote(r.value.0) + r.value.1
  {
    if |s| > 0 && s[0] == '"' then
      var (t, rest) := SplitAtQuote(s[1..]);
      if |rest| == 0 then None
      else
        assert s == Quote(t) + rest[1..];
        Some((t, rest[1..]))
    else None
  }

  lemma {:induction false} SplitAtQuoteOfText(t: string, rest: string)
    requires NoQuote(t)
    ensures SplitAtQuote(t + "\"" + rest) == (t, "\"" + rest)
  {
    if |t| > 0 {
      assert (t + "\"" + rest)[0] == t[0];
      assert (t + "\"" + rest)[1..] == t[1..] + "\"" + rest;
      SplitAtQuoteOfText(t[1..], rest);
      assert [t[0]] + t[1..] == t;
    } else {
      assert t + "\"" + rest == "\"" + rest;
    }
  }

  lemma QuotedRoundTrip(t: string, rest: string)
    requires NoQuote(t)
    ensures ParseQuoted(Quote(t) + rest) == Some((t, rest))
  {
    assert (Quote(t) + rest)[1..] == t + "\"" + rest;
    SplitAtQuoteOfText(t, rest);
  }
}

=== FILE: where_clause.dfy ===
/** `get_where_clause_list`: a filter dictionary compiled into a SQL `WHERE`
    fragment, and a reader for that fragment proving nothing is lost. */
module WhereClause {
  import opened Wrappers
  import opened Text
  import opened Iterators

  /** One `key: value` item of the filter dictionary; the dictionary is the
      sequence of its items in insertion order. */
  datatype Entry = Entry(key: string, value: Arg)

  /** What a filter means once `None` items are dropped: the field and the
      values it may take, in order. */
  datatype Constraint = Constraint(field: string, values: seq<Literal>)

  /** The failure of `' AND '.join(conditions)`: Python's `TypeError`
      "sequence item <item>: expected str instance, list found". */
  datatype WhereError = JoinTypeError(item: nat)

  /** A string is wrapped in double quotes, an integer written in decimal. */
  function RenderLiteral(l: Literal): string
  {
    match l
    case Str(s) => Quote(s)
    case Int(i) => IntToString(i)
  }

  function RenderLiterals(ls: seq<Literal>): (r: seq<string>)
    ensures |r| == |ls|
    ensures forall i :: 0 <= i < |ls| ==> r[i] == RenderLiteral(ls[i])
  {
    if |ls| == 0 then [] else [RenderLiteral(ls[0])] + RenderLiterals(ls[1..])
  }

  /** The condition on one field: `("k" = v)` for one value, `("k" IN (v1,v2))`
      for several. */
  function FragmentText(field: string, values: seq<Literal>): string
    requires |values| >= 1
  {
    var rendered := RenderLiterals(values);
    if |rendered| == 1 then "(" + Quote(field) + " = " + rendered[0] + ")"
    else "(" + Quote(field) + " IN (" + Join(rendered, ",") + "))"
  }

  /** An item of the `conditions` list: a fragment string, or the rendered
      value list itself, which stays a list when it is empty. */
  datatype Condition = Fragment(text: string) | EmptyList

  function ConditionOf(field: string, values: seq<Literal>): Condition
  {
    if |values| >= 1 then Fragment(FragmentText(field, values)) else EmptyList
  }

  /** The `conditions` list the loop over the dictionary builds. */
  function Conditions(d: seq<Entry>): seq<Condition>
  {
    if |d| == 0 then []
    else if d[0].value.Null? then Conditions(d[1..])
    else [ConditionOf(d[0].key, ToIterator(d[0].value))] + Conditions(d[1..])
  }

  /** Python's `sep.join(items)` over a list that may hold non-strings. */
  function JoinConditions(cs: seq<Condition>, sep: string): Result<string, WhereError>
  {
    if |cs| == 0 then Ok("")
    else if cs[0].EmptyList? then Err(JoinTypeError(0))
    else if |cs| == 1 then Ok(cs[0].text)
    else
      match JoinConditions(cs[1..], sep)
      case Ok(rest) => Ok(cs[0].text + sep + rest)
      case Err(JoinTypeError(i)) => Err(JoinTypeError(i + 1))
  }

  /** `get_where_clause_list(d)`: empty, or `WHERE ` and the conditions; it
      can only fail when some value is not `None`. */
  function Compile(d: seq<Entry>): (r: Result<string, WhereError>)
    ensures r.Ok? ==> r.value == "" || StartsWith(r.value, "WHERE ")
    ensures r.Err? ==> HasConstraint(d)
  {
    ConstraintsNonEmptyIff(d);
    var conditions := Conditions(d);
    if |conditions| > 0 then
      match JoinConditions(conditions, " AND ")
      case Ok(x) => Ok("WHERE " + x)
      case Err(e) => Err(e)
    else Ok("")
  }

  // ---------------------------------------------------------------------
  // Meaning of a filter dictionary.

  /** The constraints a dictionary asks for: its non-`None` items, normalised. */
  function Constraints(d: seq<Entry>): (r: seq<Constraint>)
    ensures |r| <= |d|
  {
    if |d| == 0 then []
    else if d[0].value.Null? then Constraints(d[1..])
    else [Constraint(d[0].key, ToIterator(d[0].value))] + Constraints(d[1..])
  }

  predicate HasConstraint(d: seq<Entry>)
  {
    exists i :: 0 <= i < |d| && !d[i].value.Null?
  }

  /** Some non-`None` value normalises to no elements at all. */
  predicate HasEmptyValue(d: seq<Entry>)
  {
    exists i :: 0 <= i < |d| && !d[i].value.Null? && |ToIterator(d[i].value)| == 0
  }

  function FragmentTexts(cs: seq<Constraint>): (r: seq<string>)
    requires forall i :: 0 <= i < |cs| ==> |cs[i].values| >= 1
    ensures |r| == |cs|
    ensures forall i :: 0 <= i < |cs| ==> r[i] == FragmentText(cs[i].field, cs[i].values)
  {
    if |cs| == 0 then [] else [FragmentText(cs[0].field, cs[0].values)] + FragmentTexts(cs[1..])
  }

  lemma {:induction false} ConstraintsNonEmptyIff(d: seq<Entry>)
    ensures |Constraints(d)| > 0 <==> HasConstraint(d)
    ensures |Conditions(d)| == |Constraints(d)|
  {
    if |d| > 0 {
      ConstraintsNonEmptyIff(d[1..]);
      if HasConstraint(d[1..]) {
        var i :| 0 <= i < |d[1..]| && !d[1..][i].value.Null?;
        assert !d[i + 1].value.Null?;
      }
      if HasConstraint(d) && d[0].value.Null? {
        var i :| 0 <= i < |d| && !d[i].value.Null?;
        assert !d[1..][i - 1].value.Null?;
      }
    }
  }

  /** Every condition is the condition of the constraint at the same place. */
  lemma {:induction false} ConditionsOfConstraints(d: seq<Entry>)
    ensures |Conditions(d)| == |Constraints(d)|
    ensures forall i :: 0 <= i < |Conditions(d)| ==>
      Conditions(d)[i] == ConditionOf(Constraints(d)[i].field, Constraints(d)[i].values)
  {
    if |d| > 0 {
      ConditionsOfConstraints(d[1..]);
    }
  }

  predicate HasEmptyConstraint(cs: seq<Constraint>)
  {
    exists i :: 0 <= i < |cs| && |cs[i].values| == 0
  }

  /** An empty value is either the first entry's or one further on. */
  lemma EmptyValueShift(d: seq<Entry>)
    requires |d| >= 1
    ensures HasEmptyValue(d) <==>
      (!d[0].value.Null? && |ToIterator(d[0].value)| == 0) || HasEmptyValue(d[1..])
  {
    if HasEmptyValue(d) && (d[0].value.Null? || |ToIterator(d[0].value)| != 0) {
      var i :| 0 <= i < |d| && !d[i].value.Null? && |ToIterator(d[i].value)| == 0;
      assert d[1..][i - 1] == d[i];
    }
    if HasEmptyValue(d[1..]) {
      var k :| 0 <= k < |d[1..]| && !d[1..][k].value.Null? && |ToIterator(d[1..][k].value)| == 0;
      assert d[k + 1] == d[1..][k];
    }
  }

  lemma EmptyConstraintShift(c: Constraint, tail: seq<Constraint>)
    ensures HasEmptyConstraint([c] + tail) <==> |c.values| == 0 || HasEmptyConstraint(tail)
  {
    var cs := [c] + tail;
    assert cs[0] == c;
    if HasEmptyConstraint(cs) && |c.values| != 0 {
      var i :| 0 <= i < |cs| && |cs[i].values| == 0;
      assert cs[i] == tail[i - 1];
    }
    if HasEmptyConstraint(tail) {
      var k :| 0 <= k < |tail| && |tail[k].values| == 0;
      assert cs[k + 1] == tail[k];
    }
  }

  lemma {:induction false} ConstraintEmptyIff(d: seq<Entry>)
    ensures HasEmptyValue(d) <==> HasEmptyConstraint(Constraints(d))
  {
    if |d| > 0 {
      ConstraintEmptyIff(d[1..]);
      EmptyValueShift(d);
      if !d[0].value.Null? {
        EmptyConstraintShift(Constraint(d[0].key, ToIterator(d[0].value)), Constraints(d[1..]));
      }
    }
  }

  /** How `str.join` treats the conditions: it fails at the first empty list,
      and otherwise joins the fragment texts. */
  lemma {:induction false} JoinConditionsOutcome(cs: seq<Condition>, sep: string)
    ensures JoinConditions(cs, sep).Err? <==> exists i :: 0 <= i < |cs| && cs[i].EmptyList?
    ensures JoinConditions(cs, sep).Err? ==>
      var i := JoinConditions(cs, sep).error.item;
      i < |cs| && cs[i].EmptyList? && forall j :: 0 <= j < i ==> cs[j].Fragment?
  {
    if |cs| > 0 && !cs[0].EmptyList? {
      JoinConditionsOutcome(cs[1..], sep);
      if exists i :: 0 <= i < |cs| && cs[i].EmptyList? {
        var i :| 0 <= i < |cs| && cs[i].EmptyList?;
        assert cs[1..][i - 1].EmptyList?;
      }
      if JoinConditions(cs, sep).Err? {
        var i := JoinConditions(cs[1..], sep).error.item;
        assert forall j :: 0 <= j < i ==> cs[1..][j].Fragment?;
      }
    }
  }

  lemma {:induction false} JoinConditionsOfFragments(cs: seq<Constraint>, sep: string)
    requires forall i :: 0 <= i < |cs| ==> |cs[i].values| >= 1
    ensures JoinConditions(seq(|cs|, i requires 0 <= i < |cs| => ConditionOf(cs[i].field, cs[i].values)), sep)
      == Ok(Join(FragmentTexts(cs), sep))
  {
    if |cs| > 1 {
      JoinConditionsOfFragments(cs[1..], sep);
      var conds := seq(|cs|, i requires 0 <= i < |cs| => ConditionOf(cs[i].field, cs[i].values));
      assert conds[1..] == seq(|cs[1..]|, i requires 0 <= i < |cs[1..]| => ConditionOf(cs[1..][i].field, cs[1..][i].values));
      assert FragmentTexts(cs)[1..] == FragmentTexts(cs[1..]);
    }
  }

  // ---------------------------------------------------------------------
  // Properties of the compiler.

  /** The result is the empty string exactly when every value is `None`. */
  lemma CompileEmptyIff(d: seq<Entry>)
    ensures Compile(d) == Ok("") <==> !HasConstraint(d)
  {
    ConstraintsNonEmptyIff(d);
  }

  /** The compiler fails exactly when some non-`None` value normalises to no
      elements (an empty list): `str.join` meets that list among the strings.
      The failure names the position, among the non-`None` items, of the
      first such value. */
  lemma CompileFailsIff(d: seq<Entry>)
    ensures Compile(d).Err? <==> HasEmptyValue(d)
    ensures Compile(d).Err? ==>
      var cs := Constraints(d);
      var i := Compile(d).error.item;
      i < |cs| && |cs[i].values| == 0 && forall j :: 0 <= j < i ==> |cs[j].values| >= 1
  {
    ConditionsOfConstraints(d);
    ConstraintEmptyIff(d);
    var conds := Conditions(d);
    var cs := Constraints(d);
    JoinConditionsOutcome(conds, " AND ");
    assert forall i :: 0 <= i < |cs| ==> (conds[i].EmptyList? <==> |cs[i].values| == 0);
    assert HasEmptyConstraint(cs) <==> exists i :: 0 <= i < |conds| && conds[i].EmptyList?;
  }

  /** When it succeeds on a dictionary with some non-`None` value, the result
      is `WHERE ` followed by one fragment per such value, in dictionary order,
      joined with ` AND `. */
  lemma CompileFormat(d: seq<Entry>)
    requires Compile(d).Ok? && HasConstraint(d)
    ensures forall i :: 0 <= i < |Constraints(d)| ==> |Constraints(d)[i].values| >= 1
    ensures Compile(d) == Ok("WHERE " + Join(FragmentTexts(Constraints(d)), " AND "))
  {
    CompileFailsIff(d);
    ConstraintEmptyIff(d);
    ConstraintsNonEmptyIff(d);
    ConditionsOfConstraints(d);
    var cs := Constraints(d);
    JoinConditionsOfFragments(cs, " AND ");
    assert Conditions(d) == seq(|cs|, i requires 0 <= i < |cs| => ConditionOf(cs[i].field, cs[i].values));
  }

  // ---------------------------------------------------------------------
  // Reading a compiled clause back.

  /** Reads one literal: `"text"` or a decimal integer. */
  function ParseLiteral(s: string): (r: Option<(Literal, string)>)
    ensures r.Some? ==> |r.value.1| < |s|
  {
    if |s| > 0 && s[0] == '"' then
      match ParseQuoted(s)
      case None => None
      case Some((t, rest)) => Some((Str(t), rest))
    else
      match ParseInt(s)
      case None => None
      case Some(Scanned(i, rest)) => Some((Int(i), rest))
  }

  /** Reads `v1,v2,...`: one literal or more, separated by commas. */
  function ParseLiteralList(s: string): (r: Option<(seq<Literal>, string)>)
    ensures r.Some? ==> |r.value.0| >= 1 && |r.value.1| < |s|
    decreases |s|
  {
    match ParseLiteral(s)
    case None => None
    case Some((l, rest)) =>
      if StartsWith(rest, ",") then
        match ParseLiteralList(rest[1..])
        case None => None
        case Some((ls, rest')) => Some(([l] + ls, rest'))
      else Some(([l], rest))
  }

  /** Reads one fragment, `("k" = v)` or `("k" IN (v1,...))`. */
  function ParseFragment(s: string): (r: Option<(Constraint, string)>)
    ensures r.Some? ==> |r.value.0.values| >= 1 && |r.value.1| < |s|
  {
    if !StartsWith(s, "(") then None
    else
      match ParseQuoted(s[1..])
      case None => None
      case Some((field, rest)) =>
        if StartsWith(rest, " = ") then
          match ParseLiteral(rest[3..])
          case None => None
          case Some((l, rest')) =>
            if StartsWith(rest', ")") then Some((Constraint(field, [l]), rest'[1..])) else None
        else if StartsWith(rest, " IN (") then
          match ParseLiteralList(rest[5..])
          case None => None
          case Some((ls, rest')) =>
            if StartsWith(rest', "))") then Some((Constraint(field, ls), rest'[2..])) else None
        else None
  }

  /** Reads fragments separated by ` AND ` up to the end of the text. */
  function ParseFragments(s: string): (r: Option<seq<Constraint>>)
    ensures r.Some? ==> |r.value| >= 1
    decreases |s|
  {
    match ParseFragment(s)
    case None => None
    case Some((c, rest)) =>
      if rest == "" then Some([c])
      else if StartsWith(rest, " AND ") then
        match ParseFragments(rest[5..])
        case None => None
        case Some(cs) => Some([c] + cs)
      else None
  }

  /** Reads a whole clause: empty, or `WHERE ` followed by fragments. */
  function ParseWhere(s: string): Option<seq<Constraint>>
  {
    if s == "" then Some([])
    else if StartsWith(s, "WHERE ") then ParseFragments(s[6..])
    else None
  }

  /** A literal reads back unambiguously when a string holds no double quote. */
  predicate WellFormedLiteral(l: Literal)
  {
    l.Str? ==> NoQuote(l.s)
  }

  predicate WellFormedConstraint(c: Constraint)
  {
    NoQuote(c.field) && forall i :: 0 <= i < |c.values| ==> WellFormedLiteral(c.values[i])
  }

  /** No key with a non-`None` value and no string value of the dictionary
      holds a double quote; keys whose value is `None` are never rendered. */
  predicate WellFormedEntries(d: seq<Entry>)
  {
    forall i :: 0 <= i < |d| && !d[i].value.Null? ==>
      WellFormedConstraint(Constraint(d[i].key, ToIterator(d[i].value)))
  }

  lemma LiteralRoundTrip(l: Literal, rest: string)
    requires WellFormedLiteral(l) && StopsNumber(rest)
    ensures ParseLiteral(RenderLiteral(l) + rest) == Some((l, rest))
  {
    match l
    case Str(t) =>
      QuotedRoundTrip(t, rest);
    case Int(i) =>
      IntToStringRoundTrip(i, rest);
      assert (IntToString(i) + rest)[0] == IntToString(i)[0];
  }

  lemma {:induction false} LiteralListRoundTrip(ls: seq<Literal>, rest: string)
    requires |ls| >= 1 && forall i :: 0 <= i < |ls| ==> WellFormedLiteral(ls[i])
    requires StartsWith(rest, ")")
    ensures ParseLiteralList(Join(RenderLiterals(ls), ",") + rest) == Some((ls, rest))
  {
    var rendered := RenderLiterals(ls);
    assert rest[0] == ')';
    if |ls| == 1 {
      assert Join(rendered, ",") == RenderLiteral(ls[0]);
      LiteralRoundTrip(ls[0], rest);
      assert !StartsWith(rest, ",");
      assert [ls[0]] == ls;
    } else {
      var tail := Join(RenderLiterals(ls[1..]), ",") + rest;
      assert RenderLiterals(ls)[1..] == RenderLiterals(ls[1..]);
      assert Join(rendered, ",") + rest == RenderLiteral(ls[0]) + ("," + tail);
      LiteralRoundTrip(ls[0], "," + tail);
      PrefixThen(",", tail);
      LiteralListRoundTrip(ls[1..], rest);
      assert [ls[0]] + ls[1..] == ls;
    }
  }

  /** Regrouping a fragment followed by more text around its field. */
  lemma FragmentShape(field: string, op: string, values: string, close: string, rest: string)
    ensures "(" + field + op + values + close + rest == "(" + (field + (op + (values + (close + rest))))
  {
  }

  /** How the reader takes apart an `=` fragment. */
  lemma ParseEqualsFragment(s: string, field: string, after: string, l: Literal, rest: string)
    requires StartsWith(s, "(") && ParseQuoted(s[1..]) == Some((field, after))
    requires StartsWith(after, " = ") && ParseLiteral(after[3..]) == Some((l, ")" + rest))
    ensures ParseFragment(s) == Some((Constraint(field, [l]), rest))
  {
    PrefixThen(")", rest);
  }

  lemma SingleFragmentRoundTrip(field: string, l: Literal, rest: string)
    requires NoQuote(field) && WellFormedLiteral(l)
    ensures ParseFragment(FragmentText(field, [l]) + rest) == Some((Constraint(field, [l]), rest))
  {
    var lit := RenderLiteral(l);
    var tail := ")" + rest;
    var after := " = " + (lit + tail);
    var s := FragmentText(field, [l]) + rest;
    assert RenderLiterals([l]) == [lit];
    FragmentShape(Quote(field), " = ", lit, ")", rest);
    PrefixThen("(", Quote(field) + after);
    QuotedRoundTrip(field, after);
    PrefixThen(" = ", lit + tail);
    assert tail[0] == ')';
    LiteralRoundTrip(l, tail);
    ParseEqualsFragment(s, field, after, l, rest);
  }

  /** How the reader takes apart an `IN` fragment. */
  lemma ParseInFragment(s: string, field: string, after: string, ls: seq<Literal>, rest: string)
    requires StartsWith(s, "(") && ParseQuoted(s[1..]) == Some((field, after))
    requires StartsWith(after, " IN (") && after[1] == 'I'
    requires ParseLiteralList(after[5..]) == Some((ls, "))" + rest))
    ensures ParseFragment(s) == Some((Constraint(field, ls), rest))
  {
    assert !StartsWith(after, " = ");
    PrefixThen("))", rest);
  }

  /** An `IN` fragment reads back whatever its value list reads back as. */
  lemma InFragmentStep(field: string, joined: string, ls: seq<Literal>, rest: string)
    requires NoQuote(field) && ParseLiteralList(joined + ("))" + rest)) == Some((ls, "))" + rest))
    ensures ParseFragment("(" + (Quote(field) + (" IN (" + (joined + ("))" + rest)))))
         == Some((Constraint(field, ls), rest))
  {
    var tail := "))" + rest;
    var after := " IN (" + (joined + tail);
    PrefixThen("(", Quote(field) + after);
    QuotedRoundTrip(field, after);
    PrefixThen(" IN (", joined + tail);
    ParseInFragment("(" + (Quote(field) + after), field, after, ls, rest);
  }

  lemma ListFragmentRoundTrip(field: string, ls: seq<Literal>, rest: string)
    requires |ls| >= 2 && NoQuote(field) && forall i :: 0 <= i < |ls| ==> WellFormedLiteral(ls[i])
    ensures ParseFragment(FragmentText(field, ls) + rest) == Some((Constraint(field, ls), rest))
  {
    var joined := Join(RenderLiterals(ls), ",");
    assert FragmentText(field, ls) == "(" + Quote(field) + " IN (" + joined + "))";
    FragmentShape(Quote(field), " IN (", joined, "))", rest);
    PrefixThen("))", rest);
    LiteralListRoundTrip(ls, "))" + rest);
    InFragmentStep(field, joined, ls, rest);
  }

  lemma FragmentRoundTrip(c: Constraint, rest: string)
    requires |c.values| >= 1 && WellFormedConstraint(c)
    ensures ParseFragment(FragmentText(c.field, c.values) + rest) == Some((c, rest))
  {
    if |c.values| == 1 {
      assert c.values == [c.values[0]];
      SingleFragmentRoundTrip(c.field, c.values[0], rest);
    } else {
      ListFragmentRoundTrip(c.field, c.values, rest);
    }
  }

  /** How the reader continues after one fragment. */
  lemma ParseFragmentsStep(s: string, c: Constraint, tail: string, cs: seq<Constraint>)
    requires ParseFragment(s) == Some((c, " AND " + tail))
    requires ParseFragments(tail) == Some(cs)
    ensures ParseFragments(s) == Some([c] + cs)
  {
    PrefixThen(" AND ", tail);
  }

  /** Every constraint has a value and reads back unambiguously. */
  predicate Readable(cs: seq<Constraint>)
  {
    forall i :: 0 <= i < |cs| ==> |cs[i].values| >= 1 && WellFormedConstraint(cs[i])
  }

  lemma ReadableTail(cs: seq<Constraint>)
    requires |cs| >= 1 && Readable(cs)
    ensures |cs[0].values| >= 1 && WellFormedConstraint(cs[0]) && Readable(cs[1..])
  {
    assert forall i :: 0 <= i < |cs[1..]| ==> cs[1..][i] == cs[i + 1];
  }

  lemma {:induction false} FragmentsRoundTrip(cs: seq<Constraint>)
    requires |cs| >= 1 && Readable(cs)
    ensures ParseFragments(Join(FragmentTexts(cs), " AND ")) == Some(cs)
  {
    var texts := FragmentTexts(cs);
    ReadableTail(cs);
    if |cs| == 1 {
      FragmentRoundTrip(cs[0], "");
      assert Join(texts, " AND ") == FragmentText(cs[0].field, cs[0].values) + "";
      assert [cs[0]] == cs;
    } else {
      var first := FragmentText(cs[0].field, cs[0].values);
      var tail := Join(FragmentTexts(cs[1..]), " AND ");
      assert texts == [first] + FragmentTexts(cs[1..]);
      assert texts[1..] == FragmentTexts(cs[1..]);
      assert Join(texts, " AND ") == first + " AND " + tail;
      Associative(first, " AND ", tail);
      FragmentRoundTrip(cs[0], " AND " + tail);
      FragmentsRoundTrip(cs[1..]);
      ParseFragmentsStep(Join(texts, " AND "), cs[0], tail, cs[1..]);
      HeadTail(cs);
    }
  }

  lemma {:induction false} ConstraintsWellFormed(d: seq<Entry>)
    requires WellFormedEntries(d)
    ensures forall i :: 0 <= i < |Constraints(d)| ==> WellFormedConstraint(Constraints(d)[i])
  {
    if |d| > 0 {
      assert WellFormedEntries(d[1..]) by {
        forall i | 0 <= i < |d[1..]| && !d[1..][i].value.Null?
          ensures WellFormedConstraint(Constraint(d[1..][i].key, ToIterator(d[1..][i].value)))
        {
          assert d[1..][i] == d[i + 1];
        }
      }
      ConstraintsWellFormed(d[1..]);
    }
  }

  /** Round trip: when no key or string value holds a double quote, reading a
      successfully compiled clause gives back exactly the non-`None` items of
      the dictionary, in order, each with its normalised value list. */
  lemma CompileRoundTrip(d: seq<Entry>)
    requires WellFormedEntries(d) && Compile(d).Ok?
    ensures ParseWhere(Compile(d).value) == Some(Constraints(d))
  {
    ConstraintsNonEmptyIff(d);
    if HasConstraint(d) {
      CompileFormat(d);
      ConstraintsWellFormed(d);
      var body := Join(FragmentTexts(Constraints(d)), " AND ");
      assert ("WHERE " + body)[6..] == body;
      assert Readable(Constraints(d));
      FragmentsRoundTrip(Constraints(d));
    }
  }
}

=== FILE: wrappers.dfy ===
/** Optional values and results with an error, used wherever the modelled
    Python code returns `None` or raises. */
module Wrappers {

  datatype Option<+T> = None | Some(value: T)

  /** `Err` stands for a raised exception; the error value says which one. */
  datatype Result<+T, +E> = Ok(value: T) | Err(error: E)
}
